=== FILE: README.md ===
# Product ingestion pipeline of the ConCommerce catalogue, in Dafny

This project models the data path of the scripts that turn the catalogue's
merged product table into vectors in a Pinecone index:

- **Preprocessing** (`scripts/1_preprocess_data.py`): prices are read out of
  texts such as `24,499৳28,100৳` (`parse_price`); processor, RAM, graphics and
  storage are picked out of the specification table by key priority and
  regular expressions (`extract_key_specs`); a searchable text is assembled
  line by line (`build_searchable_content`); and the main loop turns each row
  into a product record with a `prod_` id, skipping rows without a name or a
  price.
- **OpenAI upload** (`scripts/4_upload_openai_pinecone.py`): the row-count
  guard; per product, a metadata dict whose texts are cut to fixed lengths,
  whose prices default to 0 and which carries only the truthy specs; the
  vectors sent to the default namespace in batches of 100.
- **HuggingFace upload** (`scripts/5_upload_huggingface_pinecone.py`): the
  row-count and width (384) guards; per product, a metadata dict read with
  defaults from which every `''`, `None` and `0` is dropped; the vectors
  sent to the `huggingface` namespace in batches of 100.

Modules, in dependency order:

| file | module | contents |
|---|---|---|
| `wrappers.dfy` | `Wrappers` | `Option`, `Result` |
| `text.dfy` | `Text` | digits, `str(n)`, `{:,}`, `s[:n]`, `str.split` on one character, `sep.join` |
| `price.dfy` | `Price` | `re.findall(r'[\d,]+')` as maximal runs, `parse_price` and its round trips |
| `keyspecs.dfy` | `KeySpecs` | the two size patterns matched by hand, key priority, `extract_key_specs` |
| `content.dfy` | `Content` | the raw row, the twelve candidate lines, `build_searchable_content` |
| `values.dfy` | `Values` | JSON values as the upload scripts hold them; Python truthiness, `or 0`, `dict.get`; the rule tables' key helpers |
| `records.dfy` | `Records` | product ids, the per-row record, the main loop, the record as JSON |
| `batching.dfy` | `Batching` | vector preparation loop, `range(0, n, 100)` slicing, the upsert loop and its outcome |
| `openai_upload.dfy` | `OpenAIUpload` | the OpenAI script's metadata, guard and upload |
| `hf_upload.dfy` | `HFUpload` | the HuggingFace script's metadata, guards and upload |
| `pipeline.dfy` | `Pipeline` | what the upload scripts make of the preprocessing script's records |

The upload scripts work on JSON dicts (`map<string, Value>`) rather than on
records, because what they do with a missing key, a `null`, an empty string
or a zero differs from field to field. A Python exception that ends the
script becomes an error value (`None`, `Err`, `Aborted`). The vector index is
a parameter `accepts(namespace, batch)` saying whether an upsert call
returns normally. `safe_json_parse` is an oracle: the raw row carries what it
made of the specification and feature cells.

Each script's rule table (`OpenAIUpload.BaseRules`, `OpenAIUpload.SpecRules`,
`HFUpload.Rules`) is the script's dict literal written as data, line by line:
key, and how the value is computed. The metadata functions interpret the
table, and the lemmas about the concrete table are proved from generic
lemmas about any table with distinct keys.

Observations the model makes precise:

- A row's id is `prod_<sku>`, or `prod_<row index>` without a SKU. Both kinds
  share one namespace, so the SKU `"7"` and the SKU-less row 7 get the same
  id (`Records.SkuMayCollideWithIndex`). Two rows with the same SKU also
  share an id.
- The OpenAI metadata keeps a zero price as `0`. The HuggingFace metadata
  drops it, together with empty brands and empty specs. The HuggingFace
  brand default `Unknown` never applies to a preprocessed record, because
  every record has a `brand` key (`Pipeline.HFUploadsEveryRecord`).
- In the OpenAI script, `product['price_min'] or 0` turns a falsy price
  into 0, but a missing `price_min` key raises. The model follows the code:
  such a product makes the script stop (`OpenAIUpload.Exportable`).

## Model

| member | source | states |
|---|---|---|
| Price.ParsePrice | scripts/1_preprocess_data.py:22-46 | missing cell or no number gives None; otherwise min <= max, both are among the numbers found, and every number found lies between them |
| Price.RunsAreMaximal | scripts/1_preprocess_data.py:38 | `re.findall(r'[\d,]+')` yields the maximal runs in text order: the text is run-free gaps and non-empty runs of digits and commas interleaved, every inner gap non-empty |
| Price.MaximalRunsAreRuns | scripts/1_preprocess_data.py:38 | conversely, any such interleaving of gaps and maximal runs is found back run for run, so the runs found are exactly the maximal ones |
| Price.RunValueOfRun | scripts/1_preprocess_data.py:39 | a run keeps a value exactly when it holds a digit |
| Price.SeqMin | scripts/1_preprocess_data.py:46 | `min(prices)` is one of the prices and no larger than any |
| Price.SeqMax | scripts/1_preprocess_data.py:46 | `max(prices)` is one of the prices and no smaller than any |
| Price.NumbersEmptyIffNoDigit | scripts/1_preprocess_data.py:38-42 | the `[\d,]+` runs yield no integer exactly when the text has no digit |
| Price.ParsePriceNoneIff | scripts/1_preprocess_data.py:34-42 | parse fails exactly for a missing cell or a text without any digit |
| Price.ParseGroupedSingle | scripts/1_preprocess_data.py:38-44 | a `{:,}`-printed number between texts without digits or commas parses to (n, n) |
| Price.ParseGroupedNumber | scripts/1_preprocess_data.py:38-44 | round trip: parsing `f"{n:,}"` gives back (n, n) |
| Price.ParseGroupedPair | scripts/1_preprocess_data.py:38-46 | two `{:,}` numbers with a separator between them parse to (smaller, larger) |
| Price.ParseTakaRange | scripts/1_preprocess_data.py:26-27 | the catalogue's `X৳Y৳` form parses to the ordered pair of X and Y |
| Price.ParseTakaSingle | scripts/1_preprocess_data.py:28 | the catalogue's `X৳` form parses to (X, X) |
| Price.DocstringRangeExample | scripts/1_preprocess_data.py:27 | `24,499৳28,100৳` gives (24499, 28100) |
| Price.DocstringSingleExample | scripts/1_preprocess_data.py:28 | `93,900৳` gives (93900, 93900) |
| Price.DocstringPlainExample | scripts/1_preprocess_data.py:29 | `50,000` gives (50000, 50000) |
| Text.FormatThousandsValue | scripts/1_preprocess_data.py:157-159 | removing the commas of `{:,}` output leaves a digit string whose value is the number |
| Text.DecimalInjective | scripts/1_preprocess_data.py:244 | different row indices have different decimal spellings |
| Text.FormatThousands | scripts/1_preprocess_data.py:157-159 | `{:,}` output is a first group of one to three digits without a leading zero, then groups of a comma and exactly three digits; it holds a comma exactly from 1000 on |
| Text.FormatThousandsAmount | scripts/1_preprocess_data.py:157-159 | `{:,}` prints a grouped amount: comma grouping, no leading zero, and the value of its digits is the number |
| Text.Take | scripts/1_preprocess_data.py:163 | `s[:n]` is the prefix of length min(n, len(s)) |
| Text.FirstLine | scripts/1_preprocess_data.py:78 | `split('\n')[0]` is a prefix without a line feed, ending where the first line feed is |
| Text.Join | scripts/1_preprocess_data.py:190 | `sep.join` has the parts' total length plus one separator between each two parts, starts with the first part, and is the part itself for one part |
| Text.JoinAppend | scripts/1_preprocess_data.py:190 | joining a list that grows by one part appends the separator and that part |
| Text.JoinEmpty | scripts/1_preprocess_data.py:190 | when the first part is non-empty, the join is empty exactly for no parts |
| Text.Split | scripts/1_preprocess_data.py:190 | `str.split` on one character gives at least one piece, none holding that character |
| Text.SplitJoin | scripts/1_preprocess_data.py:190 | round trip: splitting the join of one or more parts free of the separator gives the parts back |
| KeySpecs.FindSizeShape | scripts/1_preprocess_data.py:89-91 | `re.search` finds nothing exactly when no position starts a match; a match is a piece of the text starting with digits and a unit |
| KeySpecs.DigitRunEnd | scripts/1_preprocess_data.py:89 | `\d+` takes the whole run of digits |
| KeySpecs.FirstWordAt | scripts/1_preprocess_data.py:113 | an alternation takes its first alternative that matches |
| KeySpecs.SearchFrom | scripts/1_preprocess_data.py:89 | `re.search` takes the leftmost position where a match starts |
| KeySpecs.MatchShape | scripts/1_preprocess_data.py:89-91 | a match starts with a number immediately followed by a unit |
| KeySpecs.NoDigitNoSize | scripts/1_preprocess_data.py:89-90 | a text without digits has no RAM or storage size |
| KeySpecs.RamExample | scripts/1_preprocess_data.py:88-89 | the RAM pattern takes `16GB DDR5` whole |
| KeySpecs.StorageExample | scripts/1_preprocess_data.py:112-113 | the storage pattern takes `512GB NVMe` out of `512GB NVMe SSD`, the first suffix alternative winning |
| KeySpecs.ExtractKeySpecs | scripts/1_preprocess_data.py:59-119 | an unparsed or empty table gives four Nones; the processor is set exactly when the Processor text is non-empty; graphics exactly when one of its keys has a non-empty text |
| KeySpecs.FieldIsFirstUsableKey | scripts/1_preprocess_data.py:83-117 | each field is what the first key with a usable text yields; keys with a missing, empty or size-less text do not stop the search |
| KeySpecs.RamSkipsKeyWithoutSize | scripts/1_preprocess_data.py:84-92 | a RAM text without a size does not break the loop: the Memory key is consulted next |
| KeySpecs.LineFieldIsFirstLine | scripts/1_preprocess_data.py:75-104 | processor and graphics are set exactly when one of their keys has a non-empty text, and are then the first line of the first such key's text: a prefix free of line feeds that ends at its first line feed or at its end |
| KeySpecs.SizeFieldShape | scripts/1_preprocess_data.py:82-117 | RAM and storage are a piece of one of their keys' texts that starts with a number and GB (or TB for storage) |
| Content.Labelled | scripts/1_preprocess_data.py:137-150 | a labelled line exists exactly when the cell is present, starts with its heading, and after heading and `: ` reads back the cell |
| Content.SpecLine | scripts/1_preprocess_data.py:173-183 | a spec line exists exactly when the spec is truthy, starts with the heading and `: `, and reads back the spec after it |
| Content.PriceLine | scripts/1_preprocess_data.py:153-159 | the price line exists exactly when both prices are truthy; for equal prices it is `Price: X Taka`, otherwise `Price Range: X to Y Taka`, with X the `{:,}` spelling of the lower price and Y that of the upper |
| Content.SinglePriceText | scripts/1_preprocess_data.py:157 | the single-price line is `Price: `, the comma-grouped amount whose value is the price, then ` Taka` |
| Content.RangePriceText | scripts/1_preprocess_data.py:159 | the range line is `Price Range: `, the grouped lower amount, ` to `, the grouped upper amount, then ` Taka` |
| Content.FeaturesLine | scripts/1_preprocess_data.py:167-170 | the features line exists exactly for a non-empty list, and starts with `Key Features: ` |
| Content.FeaturesLineShort | scripts/1_preprocess_data.py:169-170 | a list of one to five features is joined whole with ` \| ` |
| Content.FeaturesLineIgnoresExtra | scripts/1_preprocess_data.py:169 | features past the fifth do not change the line |
| Content.PriceLineRoundTrip | scripts/1_preprocess_data.py:153-159 | round trip: `parse_price` of the emitted price line gives back the price range |
| Content.SlotPresence | scripts/1_preprocess_data.py:134-188 | each of the twelve lines appears exactly when its field is present (or truthy); description and warranty are bounded by their cut lengths |
| Content.SlotHeadings | scripts/1_preprocess_data.py:134-188 | every line that appears starts with its heading |
| Content.PresentIsOrderedFilter | scripts/1_preprocess_data.py:134-190 | the lines joined are exactly the present ones, in the order the appends run |
| Content.SearchableContent | scripts/1_preprocess_data.py:122-190 | a row with a name yields a text that starts with `Product: <name>`; the text is empty exactly when no line is present |
| Content.SearchableContentLines | scripts/1_preprocess_data.py:122-190 | when no line holds a line feed, splitting the text at line feeds gives back exactly the present lines, in slot order |
| Records.ProductId | scripts/1_preprocess_data.py:244 | the id is `prod_` followed by the SKU, or by the row index without a SKU |
| Records.IndexIdsDistinct | scripts/1_preprocess_data.py:244 | rows without a SKU get distinct ids |
| Records.SkuIdsDistinct | scripts/1_preprocess_data.py:244 | different SKUs give distinct ids |
| Records.SkuMayCollideWithIndex | scripts/1_preprocess_data.py:244 | a SKU spelled like another row's index gives the same id as that row |
| Records.BuildRecord | scripts/1_preprocess_data.py:240-269 | a row is skipped exactly when it has no name or no digit in its price; otherwise every field of the record comes from the row as the dict literal says: the warranty is the cell cut to its first 200 characters, and the search text is the searchable content built from the row, its parsed prices and its key specs |
| Records.Collect | scripts/1_preprocess_data.py:240-271 | the kept items come from increasing row positions, one per row the builder accepts, and the rest are counted as skipped |
| Records.Preprocess | scripts/1_preprocess_data.py:237-271 | the records are the built rows in row order; records plus skipped rows account for every row |
| Records.ToJson | scripts/1_preprocess_data.py:251-269 | the record's JSON has the twelve keys, a specs dict with four keys, string texts and integer prices |
| Batching.BatchAt | scripts/4_upload_openai_pinecone.py:212-213 | every slice `vectors[i:i+100]` has between 1 and 100 items |
| Batching.Batches | scripts/4_upload_openai_pinecone.py:212-213 | one slice per start of `range(0, n, 100)`, in loop order |
| Batching.FlattenPrefix | scripts/4_upload_openai_pinecone.py:212-216 | the first k batches together are the first min(100 k, n) vectors |
| Batching.BatchesPartition | scripts/4_upload_openai_pinecone.py:205-213 | there are `(n + 99) // 100` batches; laid end to end they are the vectors; each holds 1 to 100, all but the last exactly 100 |
| Batching.StoppedAt | scripts/4_upload_openai_pinecone.py:220-222 | when call k raises, not every batch is accepted and exactly 100 k vectors were counted |
| Batching.FinishedAll | scripts/4_upload_openai_pinecone.py:211-218 | when no call raises, the count is the number of vectors and the calls sent them all in order |
| Batching.UploadInBatches | scripts/4_upload_openai_pinecone.py:208-223 | call k carries batch k; all calls succeed exactly when every batch is accepted, and then every vector is sent once in order; otherwise the loop stops at the first refused batch with 100 per earlier call counted |
| Batching.PrepareFrom | scripts/4_upload_openai_pinecone.py:164-198 | the preparation loop succeeds exactly when every product builds, with vector i built from product i; otherwise it fails at the first product that does not |
| OpenAIUpload.Apply | scripts/4_upload_openai_pinecone.py:166-176 | a cut raises unless the value is a string and keeps at most its limit of leading characters; `or 0` and plain copies never raise |
| OpenAIUpload.ProjectDefinedIff | scripts/4_upload_openai_pinecone.py:164-189 | for any rule tables, the metadata is built exactly when every dict-literal key is present with a value its rule accepts and the specs are a dict whose truthy specs are strings |
| OpenAIUpload.ProjectContents | scripts/4_upload_openai_pinecone.py:164-189 | for distinct keys, the metadata keys are the literal's keys plus the truthy specs', each holding its rule's result |
| OpenAIUpload.RuleTablesWellFormed | scripts/4_upload_openai_pinecone.py:166-189 | the script's tables write distinct keys, disjoint from each other, and every spec is cut |
| OpenAIUpload.MetadataDefinedIff | scripts/4_upload_openai_pinecone.py:164-189 | metadata is built exactly for exportable products |
| OpenAIUpload.MetadataKeys | scripts/4_upload_openai_pinecone.py:166-189 | the metadata has the nine literal keys and exactly the truthy specs' keys |
| OpenAIUpload.MetadataField | scripts/4_upload_openai_pinecone.py:166-176 | each literal key holds its rule's result on the product's field |
| OpenAIUpload.MetadataSpecField | scripts/4_upload_openai_pinecone.py:178-189 | each truthy spec appears cut to its limit |
| OpenAIUpload.MetadataPrices | scripts/4_upload_openai_pinecone.py:168-169 | prices are sent as they are, falsy ones as 0, and a zero price is kept |
| OpenAIUpload.VectorOf | scripts/4_upload_openai_pinecone.py:191-196 | the vector exists exactly when metadata is built and the product has an id, and carries the id, the embedding row and the metadata |
| OpenAIUpload.BuildVectors | scripts/4_upload_openai_pinecone.py:89-92 | the count guard fires exactly when the product and embedding counts differ; otherwise vectors are prepared one per product, or the first malformed product is reported |
| OpenAIUpload.BuildVectorsSpec | scripts/4_upload_openai_pinecone.py:164-198 | all vectors are prepared exactly when the counts agree and every product is exportable with an id; vector i is product i's id, row i and metadata |
| OpenAIUpload.Upload | scripts/4_upload_openai_pinecone.py:89-223 | the run aborts exactly when preparation fails; otherwise call k upserts batch k to the default namespace; it completes exactly when the index accepts every batch, and then sends every vector in order; an interrupted run's last call was refused, every earlier one accepted, and it counts 100 per accepted call |
| HFUpload.CheckShape | scripts/5_upload_huggingface_pinecone.py:66-73 | passes exactly when the row count equals the product count and the width is 384; the count is checked first |
| HFUpload.Read | scripts/5_upload_huggingface_pinecone.py:120-133 | the name must be present; defaults apply to missing keys; a price reads as `v or 0` and raises unless falsy or an integer; a spec raises unless the specs are a dict |
| HFUpload.RawFields | scripts/5_upload_huggingface_pinecone.py:120-134 | the dict literal is built exactly when every line reads, holding each line's value under its key |
| HFUpload.DropBlank | scripts/5_upload_huggingface_pinecone.py:136-137 | exactly the entries whose value is not `''`, `None` or `0` are kept, unchanged |
| HFUpload.ProjectContents | scripts/5_upload_huggingface_pinecone.py:120-137 | for distinct keys, a field is in the metadata exactly when what was read is not blank, and then holds it |
| HFUpload.RulesDistinct | scripts/5_upload_huggingface_pinecone.py:120-134 | the dict literal writes each key once |
| HFUpload.RulesAre | scripts/5_upload_huggingface_pinecone.py:120-134 | the literal has thirteen lines; name required, the two prices read as prices, brand defaulting to `Unknown` |
| HFUpload.MetadataDefinedIff | scripts/5_upload_huggingface_pinecone.py:120-134 | metadata is built exactly for products with a name, a dict of specs and falsy or integer prices |
| HFUpload.MetadataNeverBlank | scripts/5_upload_huggingface_pinecone.py:136-137 | no metadata value is blank and every key is one of the literal's |
| HFUpload.MetadataBrand | scripts/5_upload_huggingface_pinecone.py:124 | a missing brand becomes `Unknown`, a blank one is dropped, any other is kept |
| HFUpload.MetadataSource | scripts/5_upload_huggingface_pinecone.py:126 | a missing source becomes `Unknown`, a blank one is dropped, any other is kept |
| HFUpload.MetadataPrices | scripts/5_upload_huggingface_pinecone.py:122-123 | a price is sent exactly when truthy, and then as it is |
| HFUpload.RecordOf | scripts/5_upload_huggingface_pinecone.py:139-143 | the record exists exactly when the product has an id and metadata is built, and carries id, row and metadata |
| HFUpload.BuildRecords | scripts/5_upload_huggingface_pinecone.py:116-143 | a shape error exactly when a guard fires; otherwise one record per product, or the first malformed product |
| HFUpload.RecordsShape | scripts/5_upload_huggingface_pinecone.py:116-143 | every record of a well-shaped array has a 384-wide embedding, its product's id and metadata |
| HFUpload.Upload | scripts/5_upload_huggingface_pinecone.py:149-167 | the run aborts exactly when guards or preparation fail; otherwise call k upserts batch k to `huggingface`; it completes exactly when the index accepts every batch, and then sends every record in order; an interrupted run's last call was refused, every earlier one accepted |
| Pipeline.RecordIsExportable | scripts/4_upload_openai_pinecone.py:166-176 | every preprocessed record has every field the OpenAI metadata literal reads, with string texts |
| Pipeline.IntPricesKept | scripts/4_upload_openai_pinecone.py:168-169 | integer prices reach the OpenAI metadata unchanged, zero included |
| Pipeline.OpenAIExportsEveryRecord | scripts/4_upload_openai_pinecone.py:164-176 | every preprocessed record gets OpenAI metadata carrying its prices unchanged |
| Pipeline.HFStringBrandIntPrices | scripts/5_upload_huggingface_pinecone.py:120-137 | a product with a string brand and integer prices gets metadata; the brand is dropped exactly when empty, a price sent exactly when not zero |
| Pipeline.HFUploadsEveryRecord | scripts/5_upload_huggingface_pinecone.py:120-137 | every preprocessed record gets HuggingFace metadata; its brand is dropped exactly when empty, never defaulted; a price is sent exactly when not zero |
| Pipeline.UploadsShareIds | scripts/5_upload_huggingface_pinecone.py:117 | both scripts give vector i the id of record i |

## Left out

- Files, CSV and JSON reading and writing, progress output, environment variables, the interactive confirmation of the OpenAI script, Pinecone connection, index listing and creation, and the statistics read after the upload: these are I/O with no logic the data path depends on.
- `safe_json_parse` and `json.loads`: an oracle; the row carries the parsed specification table and feature list.
- pandas dtype coercion: the price columns are modelled as numbers or None. pandas may store a missing parsed price as NaN in a float column. NaN is truthy and not `is None`, which would change the skip test of line 247 and the price line. The model follows the code's evident reading: a row without a price is skipped.
- Content.PriceLineRoundTrip: holds for integer price columns only. Once one price is missing, pandas makes the whole column float, line 157 prints `24,499.0 Taka`, and `parse_price` of that line would read the `0` after the point as the lower price.
- Records.ProductId: a numeric SKU column with gaps is a float column in pandas, so line 244 spells such an id `prod_123.0`; the model takes SKUs as the strings the table holds.
- Content.SearchableContentLines: a line whose own text holds a line feed (a multi-line description or warranty) cannot be told apart from two lines by splitting, so the read-back is stated only for lines without one.
- Unicode digits: `\d` and `isdigit` are modelled on ASCII digits only; case-insensitive matching covers ASCII letters and the long s.
- Floats: prices are integers throughout; embedding values are `real`, never inspected.
- HFUpload.Read: `float()` of a numeric string price succeeds in the source; the model treats every non-integer truthy price as raising.
- Non-string values inside the specification table or the feature list: modelled as strings only.
- A one-dimensional embeddings array (where `shape[1]` raises): not modelled; the array is always two-dimensional.
- Batching.UploadInBatches: the exception's message is not modelled, only that the loop stops.

=== FILE: batching.dfy ===
/** Preparing one vector per product, splitting the prepared vectors into
    batches of 100 and sending them one batch at a time, as both upload
    scripts do. The vector index's `upsert` is an abstract sink: a function
    that says whether the call for a given namespace and batch returns
    normally. */
module Batching {
  import opened Wrappers

  const BatchSize: nat := 100

  function Min(a: nat, b: nat): nat {
    if a <= b then a else b
  }

  /** `(n + 99) // 100`: how many batches `range(0, n, 100)` visits. */
  function NumBatches(n: nat): nat {
    (n + BatchSize - 1) / BatchSize
  }

  /** `xs[i:i+100]` for the `k`-th start `i = 100 * k` of `range(0, len(xs), 100)`. */
  function BatchAt<T>(xs: seq<T>, k: nat): (b: seq<T>)
    requires k < NumBatches(|xs|)
    ensures 1 <= |b| <= BatchSize
  {
    xs[BatchSize * k .. Min(BatchSize * k + BatchSize, |xs|)]
  }

  /** Every batch the loop slices, in loop order. */
  function Batches<T>(xs: seq<T>): (bs: seq<seq<T>>)
    ensures |bs| == NumBatches(|xs|)
    ensures forall k | 0 <= k < |bs| :: bs[k] == BatchAt(xs, k)
  {
    seq(NumBatches(|xs|), k requires 0 <= k < NumBatches(|xs|) => BatchAt(xs, k))
  }

  /** The batches laid end to end. */
  function Flatten<T>(bs: seq<seq<T>>): seq<T>
    decreases |bs|
  {
    if |bs| == 0 then [] else Flatten(bs[..|bs| - 1]) + bs[|bs| - 1]
  }

  /** The first `k` batches cover exactly the first `min(100 k, n)` items. */
  lemma {:induction false} FlattenPrefix<T>(xs: seq<T>, k: nat)
    requires k <= NumBatches(|xs|)
    ensures Flatten(Batches(xs)[..k]) == xs[..Min(BatchSize * k, |xs|)]
  {
    if k > 0 {
      var bs := Batches(xs);
      FlattenPrefix(xs, k - 1);
      assert bs[..k][..k - 1] == bs[..k - 1];
      var lo := BatchSize * (k - 1);
      assert lo < |xs|;
      assert xs[..Min(lo + BatchSize, |xs|)] == xs[..lo] + xs[lo..Min(lo + BatchSize, |xs|)];
    }
  }

  /** Batches partition the list: in order, nothing lost, nothing repeated;
      every batch but the last is full. */
  lemma BatchesPartition<T>(xs: seq<T>)
    ensures Flatten(Batches(xs)) == xs
    ensures |Batches(xs)| == (|xs| + 99) / 100
    ensures forall k | 0 <= k < |Batches(xs)| :: 1 <= |Batches(xs)[k]| <= BatchSize
    ensures forall k | 0 <= k < |Batches(xs)| - 1 :: |Batches(xs)[k]| == BatchSize
  {
    var bs := Batches(xs);
    FlattenPrefix(xs, |bs|);
    assert bs[..|bs|] == bs;
  }

  /** One `index.upsert(vectors=batch, namespace=...)` call. */
  datatype Upsert<T> = Upsert(namespace: string, batch: seq<T>)

  /** Everything a list of calls sent, in call order. */
  function Sent<T>(calls: seq<Upsert<T>>): seq<T> {
    Flatten(seq(|calls|, k requires 0 <= k < |calls| => calls[k].batch))
  }

  /** Calls carrying every batch, in order, sent every item, in order. */
  lemma SentAllBatches<T>(items: seq<T>, calls: seq<Upsert<T>>)
    requires |calls| == NumBatches(|items|)
    requires forall k | 0 <= k < |calls| :: calls[k].batch == Batches(items)[k]
    ensures Sent(calls) == items
  {
    assert seq(|calls|, k requires 0 <= k < |calls| => calls[k].batch) == Batches(items);
    BatchesPartition(items);
  }

  /** The state the batch loop stops in when call `k` raises. */
  lemma StoppedAt<T>(items: seq<T>, namespace: string, accepts: (string, seq<T>) -> bool,
                     calls: seq<Upsert<T>>, uploaded: nat)
    requires 1 <= |calls| <= NumBatches(|items|)
    requires forall j | 0 <= j < |calls| :: calls[j] == Upsert(namespace, Batches(items)[j])
    requires forall j | 0 <= j < |calls| - 1 :: accepts(namespace, Batches(items)[j])
    requires !accepts(namespace, Batches(items)[|calls| - 1])
    requires uploaded == Min(BatchSize * (|calls| - 1), |items|)
    ensures !forall k | 0 <= k < NumBatches(|items|) :: accepts(namespace, Batches(items)[k])
    ensures !accepts(namespace, calls[|calls| - 1].batch)
    ensures forall k | 0 <= k < |calls| - 1 :: accepts(namespace, calls[k].batch)
    ensures uploaded == |Flatten(Batches(items)[..|calls| - 1])| == BatchSize * (|calls| - 1)
  {
    FlattenPrefix(items, |calls| - 1);
  }

  /** The state the batch loop ends in when no call raises. */
  lemma FinishedAll<T>(items: seq<T>, namespace: string, accepts: (string, seq<T>) -> bool,
                       calls: seq<Upsert<T>>, uploaded: nat)
    requires |calls| == NumBatches(|items|)
    requires forall j | 0 <= j < |calls| :: calls[j] == Upsert(namespace, Batches(items)[j])
    requires forall j | 0 <= j < |calls| :: accepts(namespace, Batches(items)[j])
    requires uploaded == Min(BatchSize * NumBatches(|items|), |items|)
    ensures forall k | 0 <= k < NumBatches(|items|) :: accepts(namespace, Batches(items)[k])
    ensures uploaded == |items| && Sent(calls) == items
  {
    BatchesPartition(items);
    SentAllBatches(items, calls);
  }

  /** How an upload run ends: stopped before any upsert by `error`, stopped
      by a failing upsert after `uploaded` vectors, or done. */
  datatype Outcome<E> = Aborted(error: E) | Interrupted(uploaded: nat) | Completed(uploaded: nat)

  /** The batch loop of both upload scripts. `calls` lists the upsert calls
      made, in order; the loop stops at the first call that raises. `uploaded`
      counts the items of the calls that returned normally. */
  method UploadInBatches<T>(items: seq<T>, namespace: string, accepts: (string, seq<T>) -> bool)
    returns (calls: seq<Upsert<T>>, uploaded: nat, ok: bool)
    ensures |calls| <= NumBatches(|items|)
    ensures forall k | 0 <= k < |calls| :: calls[k] == Upsert(namespace, Batches(items)[k])
    ensures ok <==> forall k | 0 <= k < NumBatches(|items|) :: accepts(namespace, Batches(items)[k])
    ensures ok ==> |calls| == NumBatches(|items|) && uploaded == |items| && Sent(calls) == items
    ensures !ok ==> |calls| >= 1 && !accepts(namespace, calls[|calls| - 1].batch)
    ensures !ok ==> forall k | 0 <= k < |calls| - 1 :: accepts(namespace, calls[k].batch)
    ensures !ok ==> uploaded == |Flatten(Batches(items)[..|calls| - 1])| == BatchSize * (|calls| - 1)
  {
    calls, uploaded, ok := [], 0, true;
    var batches := Batches(items);
    var k := 0;
    while k < |batches|
      invariant k <= |batches| && |calls| == k
      invariant forall j | 0 <= j < k :: calls[j] == Upsert(namespace, batches[j])
      invariant forall j | 0 <= j < k :: accepts(namespace, batches[j])
      invariant uploaded == Min(BatchSize * k, |items|)
    {
      calls := calls + [Upsert(namespace, batches[k])];
      if !accepts(namespace, batches[k]) {
        ok := false;
        StoppedAt(items, namespace, accepts, calls, uploaded);
        return;
      }
      uploaded := uploaded + |batches[k]|;
      k := k + 1;
    }
    FinishedAll(items, namespace, accepts, calls, uploaded);
  }

  /** The preparation loop of both scripts: `build` applied to each product
      and its embedding row, in order, stopping at the first product it fails
      on, whose index is the error. */
  function PrepareFrom<P, V>(products: seq<P>, rows: seq<seq<real>>, build: (P, seq<real>) -> Option<V>, i: nat)
    : (r: Result<seq<V>, nat>)
    requires |products| == |rows| && i <= |products|
    ensures r.Ok? <==> forall j | i <= j < |products| :: build(products[j], rows[j]).Some?
    ensures r.Ok? ==>
      && |r.value| == |products| - i
      && forall j | i <= j < |products| :: build(products[j], rows[j]) == Some(r.value[j - i])
    ensures r.Err? ==>
      && i <= r.error < |products|
      && build(products[r.error], rows[r.error]).None?
      && forall j | i <= j < r.error :: build(products[j], rows[j]).Some?
    decreases |products| - i
  {
    if i == |products| then Ok([])
    else
      match build(products[i], rows[i])
      case None => Err(i)
      case Some(v) =>
        match PrepareFrom(products, rows, build, i + 1)
        case Err(e) => Err(e)
        case Ok(vs) => Ok([v] + vs)
  }
}

=== FILE: content.dfy ===
/** `build_searchable_content` of the preprocessing script: the labelled,
    newline-joined text that is later embedded for each product. */
module Content {
  import opened Wrappers
  import opened Text
  import opened Price
  import opened KeySpecs

  /** One catalogue row as the preprocessing script reads it; `None` is a
      missing (NaN) cell. The two JSON columns appear as what `safe_json_parse`
      made of them: `None` when the cell was missing, not JSON, or (for the
      features) not a list. */
  datatype RawRow = RawRow(
    name: Option<string>,
    category: Option<string>,
    brand: Option<string>,
    source: Option<string>,
    price: Option<string>,
    description: Option<string>,
    warrantyInfo: Option<string>,
    sku: Option<string>,
    url: Option<string>,
    image: Option<string>,
    parsedSpecs: Option<map<string, string>>,
    parsedFeatures: Option<seq<string>>)

  const DescriptionLimit: nat := 500
  const WarrantyLimit: nat := 200
  const FeatureLimit: nat := 5

  /** The line labels, in the order the lines are emitted. */
  const Labels: seq<string> := ["Product", "Category", "Brand", "Source", "Price", "Description",
                                "Key Features", "Processor", "RAM", "Graphics", "Storage", "Warranty"]

  /** `f"{heading}: {value}"` when the cell is present. */
  function Labelled(heading: string, value: Option<string>): (line: Option<string>)
    ensures line.Some? <==> value.Some?
    ensures line.Some? ==> StartsWith(line.value, heading + ": ")
    ensures line.Some? ==> line.value[|heading| + 2..] == value.value
  {
    if value.Some? then Some(heading + ": " + value.value) else None
  }

  lemma LabelledHeading(heading: string, value: Option<string>)
    ensures Labelled(heading, value).Some? ==> StartsWith(Labelled(heading, value).value, heading)
  {
    if value.Some? {
      assert Labelled(heading, value).value[..|heading|] == heading;
    }
  }

  /** A spec line appears only when the spec is truthy: present and non-empty. */
  function SpecLine(heading: string, value: Option<string>): (line: Option<string>)
    ensures line.Some? <==> value.Some? && value.value != ""
    ensures line.Some? ==> StartsWith(line.value, heading + ": ")
    ensures line.Some? ==> line.value[|heading| + 2..] == value.value
  {
    if value.Some? && value.value != "" then Labelled(heading, value) else None
  }

  /** `Price: X Taka`, with `X` the `{:,}` spelling of `n`. */
  ghost predicate IsSinglePriceLine(line: string, n: nat) {
    exists x :: IsGroupedAmount(x, n) && line == "Price: " + x + " Taka"
  }

  /** `Price Range: X to Y Taka`, with `X` and `Y` the `{:,}` spellings of
      `lo` and `hi`, in that order. */
  ghost predicate IsRangePriceLine(line: string, lo: nat, hi: nat) {
    exists x, y :: IsGroupedAmount(x, lo) && IsGroupedAmount(y, hi) && line == "Price Range: " + x + " to " + y + " Taka"
  }

  /** Line 157's f-string. */
  function SinglePriceText(n: nat): (line: string)
    ensures StartsWith(line, "Price: ")
    ensures IsSinglePriceLine(line, n)
  {
    FormatThousandsAmount(n);
    "Price: " + FormatThousands(n) + " Taka"
  }

  /** Line 159's f-string. */
  function RangePriceText(lo: nat, hi: nat): (line: string)
    ensures StartsWith(line, "Price Range: ")
    ensures IsRangePriceLine(line, lo, hi)
  {
    FormatThousandsAmount(lo);
    FormatThousandsAmount(hi);
    "Price Range: " + FormatThousands(lo) + " to " + FormatThousands(hi) + " Taka"
  }

  /** The price line: one amount when the bounds agree, a range otherwise,
      nothing when either bound is missing or zero. */
  function PriceLine(prices: Option<PriceRange>): (line: Option<string>)
    ensures line.Some? <==> prices.Some? && prices.value.min != 0 && prices.value.max != 0
    ensures line.Some? ==> StartsWith(line.value, "Price")
    ensures line.Some? ==>
      StartsWith(line.value, if prices.value.min == prices.value.max then "Price: " else "Price Range: ")
    ensures line.Some? && prices.value.min == prices.value.max ==> IsSinglePriceLine(line.value, prices.value.min)
    ensures line.Some? && prices.value.min != prices.value.max ==>
      IsRangePriceLine(line.value, prices.value.min, prices.value.max)
  {
    if prices.Some? && prices.value.min != 0 && prices.value.max != 0 then
      var lo, hi := prices.value.min, prices.value.max;
      if lo == hi then Some(SinglePriceText(lo)) else Some(RangePriceText(lo, hi))
    else None
  }

  /** The first five features joined by " | ", when the list is non-empty. */
  function FeaturesLine(features: Option<seq<string>>): (line: Option<string>)
    ensures line.Some? <==> features.Some? && |features.value| > 0
    ensures line.Some? ==> StartsWith(line.value, "Key Features: ")
  {
    if features.Some? && |features.value| > 0 then
      Some("Key Features: " + Join(" | ", Take5(features.value)))
    else None
  }

  /** A list of at most five features is joined whole, in order. */
  lemma FeaturesLineShort(xs: seq<string>)
    requires 0 < |xs| <= FeatureLimit
    ensures FeaturesLine(Some(xs)) == Some("Key Features: " + Join(" | ", xs))
  {
  }

  /** Features after the fifth never reach the line. */
  lemma FeaturesLineIgnoresExtra(xs: seq<string>, more: seq<string>)
    requires |xs| == FeatureLimit
    ensures FeaturesLine(Some(xs + more)) == FeaturesLine(Some(xs))
  {
    assert (xs + more)[..FeatureLimit] == xs;
  }

  function Take5(xs: seq<string>): (r: seq<string>)
    ensures |r| == if |xs| < FeatureLimit then |xs| else FeatureLimit
    ensures r == xs[..|r|]
  {
    if |xs| <= FeatureLimit then xs else xs[..FeatureLimit]
  }

  function DescriptionText(row: RawRow): Option<string> {
    if row.description.Some? then Some(Take(row.description.value, DescriptionLimit)) else None
  }

  function WarrantyText(row: RawRow): Option<string> {
    if row.warrantyInfo.Some? then Some(Take(row.warrantyInfo.value, WarrantyLimit)) else None
  }

  /** The twelve candidate lines, one per heading, each present or not. */
  function Slots(row: RawRow, prices: Option<PriceRange>, specs: KeySpecs): (slots: seq<Option<string>>)
    ensures |slots| == |Labels|
  {
    [
      Labelled("Product", row.name),
      Labelled("Category", row.category),
      Labelled("Brand", row.brand),
      Labelled("Source", row.source),
      PriceLine(prices),
      Labelled("Description", DescriptionText(row)),
      FeaturesLine(row.parsedFeatures),
      SpecLine("Processor", specs.processor),
      SpecLine("RAM", specs.ram),
      SpecLine("Graphics", specs.gpu),
      SpecLine("Storage", specs.storage),
      Labelled("Warranty", WarrantyText(row))
    ]
  }

  /** Every present line starts with the heading of its slot. */
  lemma SlotHeadings(row: RawRow, prices: Option<PriceRange>, specs: KeySpecs)
    ensures forall i | 0 <= i < |Labels| && Slots(row, prices, specs)[i].Some? ::
      StartsWith(Slots(row, prices, specs)[i].value, Labels[i])
  {
    var slots := Slots(row, prices, specs);
    forall i | 0 <= i < |Labels| && slots[i].Some? ensures StartsWith(slots[i].value, Labels[i]) {
      if i == 0 { LabelledHeading("Product", row.name); }
      else if i == 1 { LabelledHeading("Category", row.category); }
      else if i == 2 { LabelledHeading("Brand", row.brand); }
      else if i == 3 { LabelledHeading("Source", row.source); }
      else if i == 4 { }
      else if i == 5 { LabelledHeading("Description", DescriptionText(row)); }
      else if i == 6 { assert slots[6].value[..12] == "Key Features"; }
      else if i == 7 { SpecHeading("Processor", specs.processor); }
      else if i == 8 { SpecHeading("RAM", specs.ram); }
      else if i == 9 { SpecHeading("Graphics", specs.gpu); }
      else if i == 10 { SpecHeading("Storage", specs.storage); }
      else { LabelledHeading("Warranty", WarrantyText(row)); }
    }
  }

  lemma SpecHeading(heading: string, value: Option<string>)
    ensures SpecLine(heading, value).Some? ==> StartsWith(SpecLine(heading, value).value, heading)
  {
    LabelledHeading(heading, value);
  }

  /** Which lines appear: each exactly when its field is present (and, for
      prices, features and specs, truthy); description and warranty are
      capped. */
  lemma SlotPresence(row: RawRow, prices: Option<PriceRange>, specs: KeySpecs)
    ensures var slots := Slots(row, prices, specs);
      && (slots[0].Some? <==> row.name.Some?)
      && (slots[1].Some? <==> row.category.Some?)
      && (slots[2].Some? <==> row.brand.Some?)
      && (slots[3].Some? <==> row.source.Some?)
      && (slots[4].Some? <==> prices.Some? && prices.value.min != 0 && prices.value.max != 0)
      && (slots[5].Some? <==> row.description.Some?)
      && (slots[5].Some? ==> |slots[5].value| <= |"Description: "| + DescriptionLimit)
      && (slots[6].Some? <==> row.parsedFeatures.Some? && |row.parsedFeatures.value| > 0)
      && (slots[7].Some? <==> specs.processor.Some? && specs.processor.value != "")
      && (slots[8].Some? <==> specs.ram.Some? && specs.ram.value != "")
      && (slots[9].Some? <==> specs.gpu.Some? && specs.gpu.value != "")
      && (slots[10].Some? <==> specs.storage.Some? && specs.storage.value != "")
      && (slots[11].Some? <==> row.warrantyInfo.Some?)
      && (slots[11].Some? ==> |slots[11].value| <= |"Warranty: "| + WarrantyLimit)
  {
    CellSlotPresence(row, prices, specs);
    ComputedSlotPresence(row, prices, specs);
  }

  /** The lines copied from a cell of the row. */
  lemma CellSlotPresence(row: RawRow, prices: Option<PriceRange>, specs: KeySpecs)
    ensures var slots := Slots(row, prices, specs);
      && (slots[0].Some? <==> row.name.Some?)
      && (slots[1].Some? <==> row.category.Some?)
      && (slots[2].Some? <==> row.brand.Some?)
      && (slots[3].Some? <==> row.source.Some?)
      && (slots[5].Some? <==> row.description.Some?)
      && (slots[5].Some? ==> |slots[5].value| <= |"Description: "| + DescriptionLimit)
      && (slots[11].Some? <==> row.warrantyInfo.Some?)
      && (slots[11].Some? ==> |slots[11].value| <= |"Warranty: "| + WarrantyLimit)
  {
    var slots := Slots(row, prices, specs);
    assert slots[5] == Labelled("Description", DescriptionText(row));
    CappedLine("Description", DescriptionText(row), row.description, DescriptionLimit);
    assert slots[11] == Labelled("Warranty", WarrantyText(row));
    CappedLine("Warranty", WarrantyText(row), row.warrantyInfo, WarrantyLimit);
  }

  /** The lines computed from the prices, the features and the specs. */
  lemma ComputedSlotPresence(row: RawRow, prices: Option<PriceRange>, specs: KeySpecs)
    ensures var slots := Slots(row, prices, specs);
      && (slots[4].Some? <==> prices.Some? && prices.value.min != 0 && prices.value.max != 0)
      && (slots[6].Some? <==> row.parsedFeatures.Some? && |row.parsedFeatures.value| > 0)
      && (slots[7].Some? <==> specs.processor.Some? && specs.processor.value != "")
      && (slots[8].Some? <==> specs.ram.Some? && specs.ram.value != "")
      && (slots[9].Some? <==> specs.gpu.Some? && specs.gpu.value != "")
      && (slots[10].Some? <==> specs.storage.Some? && specs.storage.value != "")
  {
  }

  /** A labelled line of a text cut to `limit` is at most the heading, the
      ": " and `limit` characters long. */
  lemma CappedLine(heading: string, text: Option<string>, cell: Option<string>, limit: nat)
    requires text.Some? <==> cell.Some?
    requires text.Some? ==> |text.value| <= limit
    ensures Labelled(heading, text).Some? <==> cell.Some?
    ensures Labelled(heading, text).Some? ==> |Labelled(heading, text).value| <= |heading + ": "| + limit
  {
  }

  /** The present lines, in slot order (the `parts.append` calls that ran). */
  function Present(slots: seq<Option<string>>): (lines: seq<string>)
    ensures |lines| <= |slots|
    decreases |slots|
  {
    if |slots| == 0 then []
    else (if slots[0].Some? then [slots[0].value] else []) + Present(slots[1..])
  }

  /** The slot each present line came from. */
  ghost function Positions(slots: seq<Option<string>>): seq<nat>
    decreases |slots|
  {
    if |slots| == 0 then []
    else
      var rest := Shift(Positions(slots[1..]));
      if slots[0].Some? then [0] + rest else rest
  }

  ghost function Shift(ps: seq<nat>): (r: seq<nat>)
    ensures |r| == |ps|
    ensures forall k | 0 <= k < |ps| :: r[k] == ps[k] + 1
  {
    seq(|ps|, k requires 0 <= k < |ps| => ps[k] + 1)
  }

  /** The lines are exactly the present slots, in slot order: line `k` is the
      slot at the `k`-th position, positions increase, and every present
      slot has a position. */
  lemma PresentIsOrderedFilter(slots: seq<Option<string>>)
    ensures |Positions(slots)| == |Present(slots)|
    ensures forall k | 0 <= k < |Positions(slots)| ::
      Positions(slots)[k] < |slots| && slots[Positions(slots)[k]] == Some(Present(slots)[k])
    ensures forall k, l | 0 <= k < l < |Positions(slots)| :: Positions(slots)[k] < Positions(slots)[l]
    ensures forall i | 0 <= i < |slots| :: slots[i].Some? <==> i in Positions(slots)
  {
    PositionsPickLines(slots);
    PositionsIncrease(slots);
    PositionsCoverPresent(slots);
  }

  lemma {:induction false} PositionsPickLines(slots: seq<Option<string>>)
    ensures |Positions(slots)| == |Present(slots)|
    ensures forall k | 0 <= k < |Positions(slots)| ::
      Positions(slots)[k] < |slots| && slots[Positions(slots)[k]] == Some(Present(slots)[k])
    decreases |slots|
  {
    if |slots| > 0 {
      var tail := slots[1..];
      PositionsPickLines(tail);
      var ps, ls := Positions(slots), Present(slots);
      var off := if slots[0].Some? then 1 else 0;
      forall k | off <= k < |ps| ensures ps[k] < |slots| && slots[ps[k]] == Some(ls[k]) {
        assert ps[k] == Positions(tail)[k - off] + 1;
        assert ls[k] == Present(tail)[k - off];
      }
    }
  }

  lemma {:induction false} PositionsIncrease(slots: seq<Option<string>>)
    ensures forall k | 0 <= k < |Positions(slots)| :: Positions(slots)[k] < |slots|
    ensures forall k, l | 0 <= k < l < |Positions(slots)| :: Positions(slots)[k] < Positions(slots)[l]
    decreases |slots|
  {
    if |slots| > 0 {
      PositionsIncrease(slots[1..]);
    }
  }

  lemma {:induction false} PositionsCoverPresent(slots: seq<Option<string>>)
    ensures forall i | 0 <= i < |slots| :: slots[i].Some? <==> i in Positions(slots)
    decreases |slots|
  {
    if |slots| > 0 {
      var tail := slots[1..];
      PositionsCoverPresent(tail);
      PositionsIncrease(tail);
      var rest := Shift(Positions(tail));
      forall i | 0 <= i < |slots| ensures slots[i].Some? <==> i in Positions(slots) {
        if i > 0 {
          assert slots[i] == tail[i - 1];
          assert i - 1 in Positions(tail) <==> i in rest;
        }
      }
    }
  }

  /** Every present slot holds at least its heading. */
  lemma SlotsNonEmpty(row: RawRow, prices: Option<PriceRange>, specs: KeySpecs)
    ensures forall i | 0 <= i < |Labels| && Slots(row, prices, specs)[i].Some? ::
      |Slots(row, prices, specs)[i].value| >= 1
  {
    var slots := Slots(row, prices, specs);
    SlotHeadings(row, prices, specs);
    LabelsNonEmpty();
    forall i | 0 <= i < |Labels| && slots[i].Some? ensures |slots[i].value| >= 1 {
      assert StartsWith(slots[i].value, Labels[i]);
    }
  }

  lemma LabelsNonEmpty()
    ensures forall i | 0 <= i < |Labels| :: |Labels[i]| >= 1
  {
  }

  /** No line is present exactly when every slot is empty. */
  lemma {:induction false} PresentEmptyIff(slots: seq<Option<string>>)
    ensures |Present(slots)| == 0 <==> forall i | 0 <= i < |slots| :: slots[i].None?
    decreases |slots|
  {
    if |slots| > 0 {
      PresentEmptyIff(slots[1..]);
      assert forall i | 1 <= i < |slots| :: slots[i] == slots[1..][i - 1];
    }
  }

  /** `build_searchable_content(row, specs)`, with the row's parsed prices. */
  function SearchableContent(row: RawRow, prices: Option<PriceRange>, specs: KeySpecs): (text: string)
    ensures row.name.Some? ==> StartsWith(text, "Product: " + row.name.value)
    ensures text == "" <==> forall i | 0 <= i < |Labels| :: Slots(row, prices, specs)[i].None?
  {
    SlotsNonEmpty(row, prices, specs);
    Render(Slots(row, prices, specs))
  }

  /** `"\n".join(parts)` of the present lines. */
  function Render(slots: seq<Option<string>>): (text: string)
    requires forall i | 0 <= i < |slots| && slots[i].Some? :: |slots[i].value| >= 1
    ensures text == "" <==> forall i | 0 <= i < |slots| :: slots[i].None?
    ensures |slots| >= 1 && slots[0].Some? ==> StartsWith(text, slots[0].value)
  {
    var lines := Present(slots);
    PresentEmptyIff(slots);
    PositionsPickLines(slots);
    assert |lines| >= 1 ==> slots[Positions(slots)[0]] == Some(lines[0]);
    JoinEmpty("\n", lines);
    Join("\n", lines)
  }

  /** Reading the text back: when no line holds a line feed of its own,
      splitting the text on line feeds gives the present lines, each the
      slot it came from, in slot order. */
  lemma SearchableContentLines(row: RawRow, prices: Option<PriceRange>, specs: KeySpecs)
    requires forall i | 0 <= i < |Labels| ::
      Slots(row, prices, specs)[i].Some? ==> '\n' !in Slots(row, prices, specs)[i].value
    ensures var slots, text := Slots(row, prices, specs), SearchableContent(row, prices, specs);
      text != "" ==>
        && |Split(text, '\n')| == |Positions(slots)|
        && (forall k | 0 <= k < |Positions(slots)| ::
              Positions(slots)[k] < |slots| && slots[Positions(slots)[k]] == Some(Split(text, '\n')[k]))
  {
    var slots, text := Slots(row, prices, specs), SearchableContent(row, prices, specs);
    var lines := Present(slots);
    PresentIsOrderedFilter(slots);
    if text != "" {
      assert |lines| >= 1;
      forall k | 0 <= k < |lines| ensures '\n' !in lines[k] {
        assert slots[Positions(slots)[k]] == Some(lines[k]);
      }
      SplitJoin('\n', lines);
      assert Split(text, '\n') == lines;
    }
  }

  /** Round trip: reading the price line back with `parse_price` gives the
      bounds it was printed from. */
  lemma PriceLineRoundTrip(prices: PriceRange)
    requires 0 < prices.min <= prices.max
    ensures PriceLine(Some(prices)).Some?
    ensures ParsePrice(PriceLine(Some(prices))) == Some(prices)
  {
    var lo, hi := prices.min, prices.max;
    if lo == hi {
      ParseGroupedSingle(lo, "Price: ", " Taka");
    } else {
      ParseGroupedPair(lo, hi, " to ", " Taka", "Price Range: ");
    }
  }
}

=== FILE: hf_upload.dfy ===
/** The HuggingFace upload script's data path: two shape guards on the
    embedding array, then one record per product whose metadata reads every
    field with a default and drops the empty ones; the records go to the
    "huggingface" namespace in batches of 100. */
module HFUpload {
  import opened Wrappers
  import opened Values
  import opened Batching

  /** The namespace the script upserts into. */
  const Namespace := "huggingface"

  /** The embedding width the index was created with. */
  const Dimension: nat := 384

  /** A loaded two-dimensional embedding array: its rows and `shape[1]`. */
  datatype Matrix = Matrix(rows: seq<seq<real>>, width: nat)

  /** Every row has the array's width, as in any NumPy array. */
  predicate Rectangular(m: Matrix) {
    forall i | 0 <= i < |m.rows| :: |m.rows[i]| == m.width
  }

  /** Why the script stops before uploading anything. */
  datatype UploadError =
    | CountMismatch(products: nat, embeddings: nat)
    | WrongDimension(width: nat)
    | MalformedProduct(index: nat)

  /** The two guards, in the script's order: the row count, then the width. */
  function CheckShape(products: nat, m: Matrix): (r: Option<UploadError>)
    ensures r.None? <==> |m.rows| == products && m.width == Dimension
    ensures |m.rows| != products ==> r == Some(CountMismatch(products, |m.rows|))
    ensures |m.rows| == products && m.width != Dimension ==> r == Some(WrongDimension(m.width))
  {
    if |m.rows| != products then Some(CountMismatch(products, |m.rows|))
    else if m.width != Dimension then Some(WrongDimension(m.width))
    else None
  }

  /** How the script reads one metadata field from a product. */
  datatype Reader =
    | Required              // `product[key]`
    | Default(value: Value) // `product.get(key, value)`
    | Price                 // `float(product.get(key, 0) or 0)`
    | Spec                  // `product.get('specs', {}).get(key, '')`

  /** The metadata dict literal, in the script's order. */
  const Rules: seq<FieldRule<Reader>> := [
    FieldRule("name", Required),
    FieldRule("price_min", Price),
    FieldRule("price_max", Price),
    FieldRule("brand", Default(Str("Unknown"))),
    FieldRule("category", Default(Str(""))),
    FieldRule("source", Default(Str("Unknown"))),
    FieldRule("url", Default(Str(""))),
    FieldRule("image", Default(Str(""))),
    FieldRule("processor", Spec),
    FieldRule("ram", Spec),
    FieldRule("storage", Spec),
    FieldRule("graphics", Spec),
    FieldRule("warranty", Default(Str("")))]

  /** The spec dict a product supplies: `product.get('specs', {})`. */
  function SpecsOf(p: map<string, Value>): Value {
    Get(p, "specs", Obj(map[]))
  }

  /** One field as the script reads it; `None` when reading it raises: a
      missing required key, a price that is neither falsy nor an integer, or
      a spec value that is not a dict. */
  function Read(p: map<string, Value>, f: FieldRule<Reader>): (r: Option<Value>)
    ensures f.rule.Required? ==> (r.Some? <==> f.key in p) && (r.Some? ==> r.value == p[f.key])
    ensures f.rule.Default? ==> r == Some(Get(p, f.key, f.rule.value))
    ensures f.rule.Price? ==>
      && (r.Some? <==> !Truthy(Get(p, f.key, Null)) || p[f.key].Int?)
      && (r.Some? ==> r.value == OrZero(Get(p, f.key, Null)))
    ensures f.rule.Spec? ==>
      && (r.Some? <==> SpecsOf(p).Obj?)
      && (r.Some? ==> r.value == Get(SpecsOf(p).fields, f.key, Str("")))
  {
    match f.rule
    case Required => if f.key in p then Some(p[f.key]) else None
    case Default(d) => Some(Get(p, f.key, d))
    case Price =>
      var v := OrZero(Get(p, f.key, Int(0)));
      if v.Int? then Some(v) else None
    case Spec =>
      var specs := SpecsOf(p);
      if specs.Obj? then Some(Get(specs.fields, f.key, Str(""))) else None
  }

  /** The dict literal, evaluated line by line. */
  function RawFields(p: map<string, Value>, rules: seq<FieldRule<Reader>>): (r: Option<map<string, Value>>)
    ensures r.Some? <==> forall i | 0 <= i < |rules| :: Read(p, rules[i]).Some?
    ensures r.Some? ==> r.value.Keys == KeysOf(rules)
    ensures r.Some? && Distinct(rules) ==>
      forall i | 0 <= i < |rules| :: Some(r.value[rules[i].key]) == Read(p, rules[i])
    decreases |rules|
  {
    if |rules| == 0 then Some(map[])
    else
      var rest := RawFields(p, rules[1..]);
      assert forall i | 1 <= i < |rules| :: rules[i] == rules[1..][i - 1];
      KeysOfCons(rules);
      match Read(p, rules[0])
      case None => None
      case Some(v) => if rest.None? then None else Some(rest.value[rules[0].key := v])
  }

  /** The values the script drops: `v in ('', None, 0)`. */
  predicate Blank(v: Value) {
    v == Str("") || v == Null || v == Int(0)
  }

  /** `{k: v for k, v in metadata.items() if v not in ('', None, 0)}`. */
  function DropBlank(m: map<string, Value>): (r: map<string, Value>)
    ensures r.Keys <= m.Keys
    ensures forall k | k in m :: k in r <==> !Blank(m[k])
    ensures forall k | k in r :: r[k] == m[k]
  {
    map k | k in m && !Blank(m[k]) :: m[k]
  }

  /** The metadata under a rule table: read every field, then drop the blank
      ones. */
  function Project(p: map<string, Value>, rules: seq<FieldRule<Reader>>): Option<map<string, Value>> {
    match RawFields(p, rules)
    case None => None
    case Some(m) => Some(DropBlank(m))
  }

  /** What the projection holds when the table writes distinct keys: no
      blank value, and each field exactly when what was read is not blank. */
  lemma ProjectContents(p: map<string, Value>, rules: seq<FieldRule<Reader>>)
    requires Distinct(rules)
    requires Project(p, rules).Some?
    ensures var m := Project(p, rules).value;
      && m.Keys <= KeysOf(rules)
      && (forall k | k in m :: !Blank(m[k]))
      && forall i | 0 <= i < |rules| ::
           && (rules[i].key in m <==> !Blank(Read(p, rules[i]).value))
           && (rules[i].key in m ==> Some(m[rules[i].key]) == Read(p, rules[i]))
  {
    var raw := RawFields(p, rules).value;
    assert forall i | 0 <= i < |rules| :: rules[i].key in raw;
  }

  /** The metadata dict the script keeps for one product; `None` when
      building it raises. */
  function Metadata(p: map<string, Value>): Option<map<string, Value>> {
    Project(p, Rules)
  }

  /** A price field the script can convert: falsy, or an integer. */
  predicate PriceReadable(p: map<string, Value>, key: string) {
    !Truthy(Get(p, key, Null)) || p[key].Int?
  }

  /** The products the script can build metadata for, in the product's own
      terms: a name is present, the specs (if present) are a dict, and both
      prices are falsy or integers. */
  predicate Uploadable(p: map<string, Value>) {
    && "name" in p
    && SpecsOf(p).Obj?
    && PriceReadable(p, "price_min")
    && PriceReadable(p, "price_max")
  }

  /** The rule table, field by field. */
  lemma RulesAre()
    ensures |Rules| == 13
    ensures Rules[0] == FieldRule("name", Required)
    ensures Rules[1] == FieldRule("price_min", Price) && Rules[2] == FieldRule("price_max", Price)
    ensures Rules[3] == FieldRule("brand", Default(Str("Unknown")))
    ensures Rules[5] == FieldRule("source", Default(Str("Unknown")))
    ensures Rules[8].rule == Spec
    ensures forall i | 0 <= i < |Rules| ::
      Rules[i].rule.Required? || Rules[i].rule.Price? || Rules[i].rule.Spec? || Rules[i].rule.Default?
    ensures forall i | 0 <= i < |Rules| :: Rules[i].rule.Required? <==> i == 0
    ensures forall i | 0 <= i < |Rules| :: Rules[i].rule.Price? <==> i == 1 || i == 2
  {
  }

  /** The table writes each key once. */
  lemma RulesDistinct()
    ensures Distinct(Rules)
  {
    var keys := ["name", "price_min", "price_max", "brand", "category", "source", "url", "image",
                 "processor", "ram", "storage", "graphics", "warranty"];
    assert forall k | 0 <= k < |keys| :: Rules[k].key == keys[k];
    assert forall i, j | 0 <= i < j < |keys| :: keys[i] != keys[j];
  }

  /** Metadata is built exactly for uploadable products. */
  lemma MetadataDefinedIff(p: map<string, Value>)
    ensures Metadata(p).Some? <==> Uploadable(p)
  {
    RulesAre();
    if Uploadable(p) {
      forall i | 0 <= i < |Rules| ensures Read(p, Rules[i]).Some? {
      }
    }
  }

  /** No metadata value is blank, and every key is one of the dict
      literal's. */
  lemma MetadataNeverBlank(p: map<string, Value>)
    requires Uploadable(p)
    ensures Metadata(p).Some?
    ensures Metadata(p).value.Keys <= KeysOf(Rules)
    ensures forall k | k in Metadata(p).value :: !Blank(Metadata(p).value[k])
  {
    MetadataDefinedIff(p);
    RulesDistinct();
    ProjectContents(p, Rules);
  }

  /** The brand: 'Unknown' only when the key is missing; a present empty or
      null brand is dropped; any other brand is kept as it is. */
  lemma MetadataBrand(p: map<string, Value>)
    requires Uploadable(p)
    ensures Metadata(p).Some?
    ensures var m := Metadata(p).value;
      && ("brand" !in p ==> "brand" in m && m["brand"] == Str("Unknown"))
      && ("brand" in p && Blank(p["brand"]) ==> "brand" !in m)
      && ("brand" in p && !Blank(p["brand"]) ==> "brand" in m && m["brand"] == p["brand"])
  {
    MetadataDefinedIff(p);
    RulesDistinct();
    RulesAre();
    ProjectContents(p, Rules);
  }

  /** The source, defaulted like the brand: 'Unknown' only when the key is
      missing; a present blank source is dropped; any other is kept. */
  lemma MetadataSource(p: map<string, Value>)
    requires Uploadable(p)
    ensures Metadata(p).Some?
    ensures var m := Metadata(p).value;
      && ("source" !in p ==> "source" in m && m["source"] == Str("Unknown"))
      && ("source" in p && Blank(p["source"]) ==> "source" !in m)
      && ("source" in p && !Blank(p["source"]) ==> "source" in m && m["source"] == p["source"])
  {
    MetadataDefinedIff(p);
    RulesDistinct();
    RulesAre();
    ProjectContents(p, Rules);
  }

  /** A price is in the metadata exactly when it is truthy, and then as it
      is: a missing, null or zero price is left out rather than sent as 0. */
  lemma MetadataPrices(p: map<string, Value>)
    requires Uploadable(p)
    ensures Metadata(p).Some?
    ensures var m := Metadata(p).value;
      && ("price_min" in m <==> Truthy(Get(p, "price_min", Null)))
      && ("price_min" in m ==> m["price_min"] == p["price_min"])
      && ("price_max" in m <==> Truthy(Get(p, "price_max", Null)))
      && ("price_max" in m ==> m["price_max"] == p["price_max"])
  {
    MetadataDefinedIff(p);
    RulesDistinct();
    RulesAre();
    ProjectContents(p, Rules);
  }

  /** `{'id': product['id'], 'values': embedding.tolist(), 'metadata': ...}`. */
  function RecordOf(p: map<string, Value>, row: seq<real>): (r: Option<Vector>)
    ensures r.Some? <==> "id" in p && Metadata(p).Some?
    ensures r.Some? ==> r.value == Vector(p["id"], row, Metadata(p).value)
  {
    if "id" !in p then None
    else
      match Metadata(p)
      case None => None
      case Some(m) => Some(Vector(p["id"], row, m))
  }

  /** The guards, then the preparation loop over `zip(products, embeddings)`. */
  function BuildRecords(products: seq<map<string, Value>>, m: Matrix): (r: Result<seq<Vector>, UploadError>)
    ensures r.Err? && !r.error.MalformedProduct? <==> CheckShape(|products|, m).Some?
    ensures r.Err? && !r.error.MalformedProduct? ==> r.error == CheckShape(|products|, m).value
    ensures r.Ok? ==>
      && |m.rows| == |products| && m.width == Dimension
      && |r.value| == |products|
      && forall i | 0 <= i < |products| :: RecordOf(products[i], m.rows[i]) == Some(r.value[i])
    ensures r.Err? && r.error.MalformedProduct? ==>
      && |m.rows| == |products|
      && r.error.index < |products|
      && RecordOf(products[r.error.index], m.rows[r.error.index]).None?
      && forall j | 0 <= j < r.error.index :: RecordOf(products[j], m.rows[j]).Some?
  {
    match CheckShape(|products|, m)
    case Some(e) => Err(e)
    case None =>
      match PrepareFrom(products, m.rows, RecordOf, 0)
      case Ok(records) => Ok(records)
      case Err(i) => Err(MalformedProduct(i))
  }

  /** Every record of a well-shaped array carries a 384-wide embedding, its
      product's id and that product's metadata. */
  lemma RecordsShape(products: seq<map<string, Value>>, m: Matrix)
    requires Rectangular(m)
    requires BuildRecords(products, m).Ok?
    ensures var records := BuildRecords(products, m).value;
      forall i | 0 <= i < |records| ::
        && |records[i].values| == Dimension
        && records[i].id == products[i]["id"]
        && records[i].values == m.rows[i]
        && Some(records[i].metadata) == Metadata(products[i])
  {
  }

  /** The data path of the script's main function, from the loaded products
      and embedding array to the upsert calls it makes. */
  method Upload(products: seq<map<string, Value>>, m: Matrix, accepts: (string, seq<Vector>) -> bool)
    returns (outcome: Outcome<UploadError>, calls: seq<Upsert<Vector>>)
    ensures outcome.Aborted? <==> BuildRecords(products, m).Err?
    ensures outcome.Aborted? ==> outcome.error == BuildRecords(products, m).error && calls == []
    ensures !outcome.Aborted? ==>
      var records := BuildRecords(products, m).value;
      && |calls| <= NumBatches(|products|)
      && (forall k | 0 <= k < |calls| :: calls[k] == Upsert(Namespace, Batches(records)[k]))
    ensures outcome.Completed? ==>
      outcome.uploaded == |products| && Sent(calls) == BuildRecords(products, m).value
    ensures outcome.Interrupted? ==>
      |calls| >= 1 && outcome.uploaded == BatchSize * (|calls| - 1) < |products|
    ensures outcome.Completed? <==>
      && BuildRecords(products, m).Ok?
      && forall k | 0 <= k < NumBatches(|BuildRecords(products, m).value|) ::
           accepts(Namespace, Batches(BuildRecords(products, m).value)[k])
    ensures outcome.Interrupted? ==>
      && |calls| >= 1
      && (forall k | 0 <= k < |calls| - 1 :: accepts(Namespace, calls[k].batch))
      && !accepts(Namespace, calls[|calls| - 1].batch)
  {
    var built := BuildRecords(products, m);
    if built.Err? {
      return Aborted(built.error), [];
    }
    var successful: nat, ok: bool;
    calls, successful, ok := UploadInBatches(built.value, Namespace, accepts);
    outcome := if ok then Completed(successful) else Interrupted(successful);
  }
}

=== FILE: keyspecs.dfy ===
/** `extract_key_specs` of the preprocessing script: processor, RAM, graphics
    and storage picked out of a product's specification table. */
module KeySpecs {
  import opened Wrappers
  import opened Text

  // ---------------------------------------------------------------------------
  // The two size patterns, matched by hand
  // ---------------------------------------------------------------------------

  /** A pattern `\d+(U1|U2|...)\s*(S1|S2|...)?`, matched ignoring case; when
      `suffixTakesDigits` holds, each suffix must be followed by `\d+`. Units
      and suffixes are written in lower case. */
  datatype SizePattern = SizePattern(units: seq<string>, suffixes: seq<string>, suffixTakesDigits: bool)

  /** `\d+GB\s*(?:DDR\d+)?` */
  const RamPattern := SizePattern(["gb"], ["ddr"], true)

  /** `\d+(?:GB|TB)\s*(?:NVMe|SSD|HDD)?` */
  const StoragePattern := SizePattern(["gb", "tb"], ["nvme", "ssd", "hdd"], false)

  /** The end of the run of digits that starts at `i`. */
  function DigitRunEnd(s: string, i: nat): (j: nat)
    requires i <= |s|
    ensures i <= j <= |s|
    ensures forall k | i <= k < j :: IsDigit(s[k])
    ensures j < |s| ==> !IsDigit(s[j])
    decreases |s| - i
  {
    if i < |s| && IsDigit(s[i]) then DigitRunEnd(s, i + 1) else i
  }

  /** The end of the run of whitespace that starts at `i` (`\s*`, greedy). */
  function SpaceEnd(s: string, i: nat): (j: nat)
    requires i <= |s|
    ensures i <= j <= |s|
    ensures forall k | i <= k < j :: IsSpace(s[k])
    ensures j < |s| ==> !IsSpace(s[j])
    decreases |s| - i
  {
    if i < |s| && IsSpace(s[i]) then SpaceEnd(s, i + 1) else i
  }

  /** The first alternative among `words[from..]` that occurs at `i`,
      as a regular-expression alternation tries them. */
  function FirstWordAt(s: string, i: nat, words: seq<string>, from: nat): (r: Option<nat>)
    requires from <= |words|
    ensures r.Some? ==> from <= r.value < |words| && WordAt(s, i, words[r.value])
    ensures r.Some? ==> forall k | from <= k < r.value :: !WordAt(s, i, words[k])
    ensures r.None? ==> forall k | from <= k < |words| :: !WordAt(s, i, words[k])
    decreases |words| - from
  {
    if from == |words| then None
    else if WordAt(s, i, words[from]) then Some(from)
    else FirstWordAt(s, i, words, from + 1)
  }

  /** Where the optional suffix group ends, given that it may start at `w`. */
  function SuffixEnd(s: string, w: nat, p: SizePattern): (e: nat)
    requires w <= |s|
    ensures w <= e <= |s|
  {
    var x := FirstWordAt(s, w, p.suffixes, 0);
    if x.None? then w
    else
      var after := w + |p.suffixes[x.value]|;
      if !p.suffixTakesDigits then after
      else if after < |s| && IsDigit(s[after]) then DigitRunEnd(s, after)
      else w
  }

  /** The end of the match of `p` that starts at `i`, if one starts there:
      digits greedily, then a unit, then greedy whitespace and the optional
      suffix. */
  function MatchAt(s: string, i: nat, p: SizePattern): (r: Option<nat>)
    ensures r.Some? ==> i < r.value <= |s|
  {
    if i < |s| && IsDigit(s[i]) then
      var d := DigitRunEnd(s, i);
      var u := FirstWordAt(s, d, p.units, 0);
      if u.None? then None
      else Some(SuffixEnd(s, SpaceEnd(s, d + |p.units[u.value]|), p))
    else None
  }

  /** `re.search`: the leftmost position at or after `i` where a match starts. */
  function SearchFrom(s: string, i: nat, p: SizePattern): (r: Option<nat>)
    requires i <= |s|
    ensures r.Some? ==> i <= r.value < |s| && MatchAt(s, r.value, p).Some?
    ensures r.Some? ==> forall k | i <= k < r.value :: MatchAt(s, k, p).None?
    ensures r.None? ==> forall k | i <= k < |s| :: MatchAt(s, k, p).None?
    decreases |s| - i
  {
    if i == |s| then None
    else if MatchAt(s, i, p).Some? then Some(i)
    else SearchFrom(s, i + 1, p)
  }

  /** `re.search(pattern, text, re.IGNORECASE).group(1)`, or None without a match. */
  function FindSize(text: string, p: SizePattern): Option<string> {
    match SearchFrom(text, 0, p)
    case None => None
    case Some(start) => Some(text[start..MatchAt(text, start, p).value])
  }

  /** `m` occurs in `s`. */
  predicate IsSubstring(m: string, s: string) {
    exists i | 0 <= i <= |s| :: StartsWith(s[i..], m)
  }

  /** `m` begins with one or more digits immediately followed by one of `units`. */
  predicate StartsWithSize(m: string, units: seq<string>) {
    exists d, u | 1 <= d <= |m| && 0 <= u < |units| ::
      (forall k | 0 <= k < d :: IsDigit(m[k])) && WordAt(m, d, units[u])
  }

  /** A single match starts with a number and a unit. */
  lemma MatchShape(text: string, i: nat, p: SizePattern)
    requires MatchAt(text, i, p).Some?
    ensures StartsWithSize(text[i..MatchAt(text, i, p).value], p.units)
  {
    var e := MatchAt(text, i, p).value;
    var m := text[i..e];
    var d := DigitRunEnd(text, i);
    var u := FirstWordAt(text, d, p.units, 0).value;
    var unit := p.units[u];
    assert d + |unit| <= SpaceEnd(text, d + |unit|) <= e;
    assert forall k | 0 <= k < d - i :: IsDigit(m[k]) by {
      forall k | 0 <= k < d - i ensures IsDigit(m[k]) { assert m[k] == text[i + k]; }
    }
    assert WordAt(m, d - i, unit) by {
      forall k | 0 <= k < |unit| ensures MatchesLetter(m[d - i + k], unit[k]) {
        assert m[d - i + k] == text[d + k];
      }
    }
  }

  /** What the size search finds is a piece of the text that starts with a
      number and a unit; and it finds something exactly when some position
      of the text starts a match. */
  lemma FindSizeShape(text: string, p: SizePattern)
    ensures FindSize(text, p).None? <==> forall i | 0 <= i < |text| :: MatchAt(text, i, p).None?
    ensures FindSize(text, p).Some? ==>
      IsSubstring(FindSize(text, p).value, text) && StartsWithSize(FindSize(text, p).value, p.units)
  {
    var start := SearchFrom(text, 0, p);
    if start.Some? {
      var i := start.value;
      var e := MatchAt(text, i, p).value;
      MatchShape(text, i, p);
      assert StartsWith(text[i..], text[i..e]);
    }
  }

  // ---------------------------------------------------------------------------
  // Choosing the field by key priority
  // ---------------------------------------------------------------------------

  datatype SpecField = Processor | Ram | Gpu | Storage

  /** The specification keys each field consults, highest priority first. */
  function Keys(f: SpecField): seq<string> {
    match f
    case Processor => ["Processor"]
    case Ram => ["RAM", "Memory", "Ram"]
    case Gpu => ["Graphics Card", "Graphics", "GPU", "Display"]
    case Storage => ["Storage", "SSD", "Hard Drive", "HDD"]
  }

  /** What a field takes from one non-empty text: its first line for processor
      and graphics, the size the pattern finds for RAM and storage. */
  function FromText(f: SpecField, text: string): Option<string> {
    match f
    case Processor => Some(FirstLine(text))
    case Gpu => Some(FirstLine(text))
    case Ram => FindSize(text, RamPattern)
    case Storage => FindSize(text, StoragePattern)
  }

  /** One iteration of the key loop: a missing key or an empty text yields nothing. */
  function Probe(specs: map<string, string>, key: string, f: SpecField): Option<string> {
    if key in specs && specs[key] != "" then FromText(f, specs[key]) else None
  }

  /** The position of the first key whose probe yields a value (the loop's `break`). */
  function FirstHit(specs: map<string, string>, f: SpecField, from: nat): (r: Option<nat>)
    requires from <= |Keys(f)|
    ensures r.Some? ==> from <= r.value < |Keys(f)| && Probe(specs, Keys(f)[r.value], f).Some?
    ensures r.Some? ==> forall k | from <= k < r.value :: Probe(specs, Keys(f)[k], f).None?
    ensures r.None? ==> forall k | from <= k < |Keys(f)| :: Probe(specs, Keys(f)[k], f).None?
    decreases |Keys(f)| - from
  {
    if from == |Keys(f)| then None
    else if Probe(specs, Keys(f)[from], f).Some? then Some(from)
    else FirstHit(specs, f, from + 1)
  }

  function Field(specs: map<string, string>, f: SpecField): Option<string> {
    match FirstHit(specs, f, 0)
    case None => None
    case Some(j) => Probe(specs, Keys(f)[j], f)
  }

  /** The four specs of a product; the source's dict always has exactly these keys. */
  datatype KeySpecs = KeySpecs(processor: Option<string>, ram: Option<string>, gpu: Option<string>, storage: Option<string>)

  const NoSpecs := KeySpecs(None, None, None, None)

  /** `extract_key_specs(row)`. `parsed` is what `safe_json_parse` made of the
      row's specification text: `None` when the cell was missing or not JSON,
      in which case the source falls back to an empty dict. */
  function ExtractKeySpecs(parsed: Option<map<string, string>>): (r: KeySpecs)
    ensures parsed.None? || parsed.value == map[] ==> r == NoSpecs
    ensures parsed.Some? && parsed.value != map[] ==>
      && (r.processor.Some? <==> "Processor" in parsed.value && parsed.value["Processor"] != "")
      && (r.gpu.Some? <==> exists k | k in Keys(Gpu) :: k in parsed.value && parsed.value[k] != "")
  {
    if parsed.None? || parsed.value == map[] then NoSpecs
    else
      var d := parsed.value;
      assert forall k | k in Keys(Gpu) :: exists j | 0 <= j < |Keys(Gpu)| :: Keys(Gpu)[j] == k;
      KeySpecs(Field(d, Processor), Field(d, Ram), Field(d, Gpu), Field(d, Storage))
  }

  /** Key priority: a field's value is what the first key with a usable text
      yields; a key whose text is missing, empty or without a size does not
      stop the search. */
  lemma FieldIsFirstUsableKey(specs: map<string, string>, f: SpecField)
    ensures Field(specs, f).None? <==> forall j | 0 <= j < |Keys(f)| :: Probe(specs, Keys(f)[j], f).None?
    ensures Field(specs, f).Some? ==> exists j | 0 <= j < |Keys(f)| ::
      && Field(specs, f) == Probe(specs, Keys(f)[j], f)
      && Keys(f)[j] in specs && specs[Keys(f)[j]] != ""
      && forall k | 0 <= k < j :: Probe(specs, Keys(f)[k], f).None?
  {
    var h := FirstHit(specs, f, 0);
    if h.Some? {
      var j := h.value;
      assert Field(specs, f) == Probe(specs, Keys(f)[j], f);
    }
  }

  /** A key whose text is present and non-empty. */
  predicate HasText(specs: map<string, string>, key: string) {
    key in specs && specs[key] != ""
  }

  /** Processor and graphics are set exactly when one of their keys has a
      non-empty text, and are then the first line of the first such text:
      the text up to, not including, its first line feed. */
  lemma LineFieldIsFirstLine(specs: map<string, string>, f: SpecField)
    requires f == Processor || f == Gpu
    ensures Field(specs, f).Some? <==> exists j | 0 <= j < |Keys(f)| :: HasText(specs, Keys(f)[j])
    ensures Field(specs, f).Some? ==>
      && '\n' !in Field(specs, f).value
      && exists j | 0 <= j < |Keys(f)| :: Keys(f)[j] in specs && StartsWith(specs[Keys(f)[j]], Field(specs, f).value)
    ensures Field(specs, f).Some? ==> exists j | 0 <= j < |Keys(f)| ::
      && HasText(specs, Keys(f)[j])
      && (forall k | 0 <= k < j :: !HasText(specs, Keys(f)[k]))
      && var t, v := specs[Keys(f)[j]], Field(specs, f).value;
         StartsWith(t, v) && '\n' !in v && (|v| < |t| ==> t[|v|] == '\n')
  {
    FieldIsFirstUsableKey(specs, f);
    assert forall k | 0 <= k < |Keys(f)| :: Probe(specs, Keys(f)[k], f).Some? <==> HasText(specs, Keys(f)[k]);
    if Field(specs, f).Some? {
      var j :| 0 <= j < |Keys(f)| && Field(specs, f) == Probe(specs, Keys(f)[j], f) && Keys(f)[j] in specs && specs[Keys(f)[j]] != ""
        && forall k | 0 <= k < j :: Probe(specs, Keys(f)[k], f).None?;
      assert Field(specs, f).value == FirstLine(specs[Keys(f)[j]]);
    }
  }

  /** RAM and storage are a piece of one of their keys' texts that starts
      with a number and GB (or TB, for storage). */
  lemma SizeFieldShape(specs: map<string, string>, f: SpecField)
    requires f == Ram || f == Storage
    ensures Field(specs, f).Some? ==>
      && StartsWithSize(Field(specs, f).value, if f == Ram then ["gb"] else ["gb", "tb"])
      && exists j | 0 <= j < |Keys(f)| :: Keys(f)[j] in specs && IsSubstring(Field(specs, f).value, specs[Keys(f)[j]])
  {
    FieldIsFirstUsableKey(specs, f);
    if Field(specs, f).Some? {
      var j :| 0 <= j < |Keys(f)| && Field(specs, f) == Probe(specs, Keys(f)[j], f) && Keys(f)[j] in specs && specs[Keys(f)[j]] != "";
      FindSizeShape(specs[Keys(f)[j]], if f == Ram then RamPattern else StoragePattern);
    }
  }

  /** The RAM pattern on the text the source's comment cites. */
  lemma RamExample()
    ensures FindSize("16GB DDR5", RamPattern) == Some("16GB DDR5")
  {
    var t := "16GB DDR5";
    assert DigitRunEnd(t, 0) == 2;
    assert WordAt(t, 2, "gb");
    assert SpaceEnd(t, 4) == 5;
    assert WordAt(t, 5, "ddr");
    assert DigitRunEnd(t, 8) == 9;
    assert MatchAt(t, 0, RamPattern) == Some(9);
    assert t[0..9] == t;
  }

  /** A text without digits has no size. */
  lemma NoDigitNoSize(text: string, p: SizePattern)
    requires !HasDigit(text)
    ensures FindSize(text, p) == None
  {
    forall i | 0 <= i < |text| ensures MatchAt(text, i, p).None? {
      assert !IsDigit(text[i]);
    }
    FindSizeShape(text, p);
  }

  /** A RAM key whose text has no size does not stop the search: the next
      key, "Memory", is consulted. */
  lemma RamSkipsKeyWithoutSize(specs: map<string, string>)
    requires "RAM" in specs && !HasDigit(specs["RAM"])
    requires "Memory" in specs && specs["Memory"] != "" && FindSize(specs["Memory"], RamPattern).Some?
    ensures Field(specs, Ram) == FindSize(specs["Memory"], RamPattern)
  {
    NoDigitNoSize(specs["RAM"], RamPattern);
    assert Keys(Ram)[0] == "RAM" && Keys(Ram)[1] == "Memory";
    assert Probe(specs, "RAM", Ram).None?;
    assert FirstHit(specs, Ram, 0) == Some(1);
  }

  /** The storage pattern on the text the source's comment cites. */
  lemma StorageExample()
    ensures FindSize("512GB NVMe SSD", StoragePattern) == Some("512GB NVMe")
  {
    var t := "512GB NVMe SSD";
    StorageExampleMatch();
    assert SearchFrom(t, 0, StoragePattern) == Some(0);
    assert t[0..10] == "512GB NVMe";
  }

  lemma StorageExampleMatch()
    ensures MatchAt("512GB NVMe SSD", 0, StoragePattern) == Some(10)
  {
    var t := "512GB NVMe SSD";
    var p := StoragePattern;
    assert DigitRunEnd(t, 0) == 3;
    assert FirstWordAt(t, 3, p.units, 0) == Some(0) by {
      assert WordAt(t, 3, "gb");
    }
    assert SpaceEnd(t, 5) == 6;
    StorageExampleSuffix();
  }

  lemma StorageExampleSuffix()
    ensures SuffixEnd("512GB NVMe SSD", 6, StoragePattern) == 10
  {
    var t := "512GB NVMe SSD";
    assert WordAt(t, 6, "nvme");
    assert FirstWordAt(t, 6, StoragePattern.suffixes, 0) == Some(0);
  }
}

=== FILE: openai_upload.dfy ===
/** The OpenAI upload script's data path: each product dict becomes a vector
    whose metadata is a fixed projection of the product with every text cut
    to a length limit; the vectors go to the index's default namespace in
    batches of 100. */
module OpenAIUpload {
  import opened Wrappers
  import opened Text
  import opened Values
  import opened Batching

  /** The script upserts without a namespace argument: the default one. */
  const DefaultNamespace := ""

  /** How the script computes one metadata field from a product field. */
  datatype Rule =
    | CutText(limit: nat)  // `value[:limit]`, which raises unless the value is a string
    | Copy                 // `value`
    | ZeroIfFalsy          // `value or 0`

  /** The metadata dict literal, in the script's order; every key must be
      present in the product. */
  const BaseRules: seq<FieldRule<Rule>> := [
    FieldRule("name", CutText(200)),
    FieldRule("price_min", ZeroIfFalsy),
    FieldRule("price_max", ZeroIfFalsy),
    FieldRule("category", CutText(100)),
    FieldRule("brand", CutText(50)),
    FieldRule("source", Copy),
    FieldRule("url", CutText(200)),
    FieldRule("image", CutText(200)),
    FieldRule("warranty", CutText(150))]

  /** The spec fields, each added only when `specs.get(key)` is truthy. */
  const SpecRules: seq<FieldRule<Rule>> := [
    FieldRule("processor", CutText(80)),
    FieldRule("ram", CutText(30)),
    FieldRule("storage", CutText(30)),
    FieldRule("graphics", CutText(80))]

  /** Why the script stops before or while preparing vectors: the count
      guard, or a product whose fields make the metadata code raise. */
  datatype UploadError = CountMismatch(products: nat, embeddings: nat) | MalformedProduct(index: nat)

  /** `w` is the string `v` cut to at most `n` characters. */
  predicate CutTo(v: Value, w: Value, n: nat) {
    && v.Str? && w.Str?
    && |w.s| == (if |v.s| <= n then |v.s| else n)
    && w.s == v.s[..|w.s|]
  }

  /** A rule's result on a value; `None` when the script raises. */
  function Apply(rule: Rule, v: Value): (r: Option<Value>)
    ensures r.Some? <==> (rule.CutText? ==> v.Str?)
    ensures r.Some? && rule.CutText? ==> CutTo(v, r.value, rule.limit)
    ensures rule.Copy? ==> r == Some(v)
    ensures rule.ZeroIfFalsy? ==> r == Some(OrZero(v))
  {
    match rule
    case CutText(n) => if v.Str? then Some(Str(Take(v.s, n))) else None
    case Copy => Some(v)
    case ZeroIfFalsy => Some(OrZero(v))
  }

  /** A rule of the dict literal succeeds on the product. */
  predicate BaseAccepts(p: map<string, Value>, f: FieldRule<Rule>) {
    f.key in p && Apply(f.rule, p[f.key]).Some?
  }

  /** A spec statement does not raise: it is skipped, or its rule succeeds. */
  predicate SpecAccepts(specs: map<string, Value>, f: FieldRule<Rule>) {
    Truthy(Get(specs, f.key, Null)) ==> Apply(f.rule, specs[f.key]).Some?
  }

  /** The keys of the spec statements that fire. */
  function FiringKeys(specs: map<string, Value>, rules: seq<FieldRule<Rule>>): set<string> {
    set i | 0 <= i < |rules| && Truthy(Get(specs, rules[i].key, Null)) :: rules[i].key
  }

  lemma FiringKeysCons(specs: map<string, Value>, rules: seq<FieldRule<Rule>>)
    requires |rules| >= 1
    ensures FiringKeys(specs, rules) ==
      (if Truthy(Get(specs, rules[0].key, Null)) then {rules[0].key} else {}) + FiringKeys(specs, rules[1..])
  {
    assert forall i | 1 <= i < |rules| :: rules[i] == rules[1..][i - 1];
  }

  /** The dict literal, evaluated line by line. */
  function BaseFields(p: map<string, Value>, rules: seq<FieldRule<Rule>>): (r: Option<map<string, Value>>)
    ensures r.Some? <==> forall i | 0 <= i < |rules| :: BaseAccepts(p, rules[i])
    ensures r.Some? ==> r.value.Keys == KeysOf(rules)
    ensures r.Some? && Distinct(rules) ==>
      forall i | 0 <= i < |rules| :: Some(r.value[rules[i].key]) == Apply(rules[i].rule, p[rules[i].key])
    decreases |rules|
  {
    if |rules| == 0 then Some(map[])
    else
      var f := rules[0];
      var rest := BaseFields(p, rules[1..]);
      assert forall i | 1 <= i < |rules| :: rules[i] == rules[1..][i - 1];
      KeysOfCons(rules);
      if f.key !in p then None
      else
        match Apply(f.rule, p[f.key])
        case None => None
        case Some(v) => if rest.None? then None else Some(rest.value[f.key := v])
  }

  /** The spec statements, run in order on the dict built so far. */
  function AddSpecs(meta: map<string, Value>, specs: map<string, Value>, rules: seq<FieldRule<Rule>>)
    : (r: Option<map<string, Value>>)
    ensures r.Some? <==> forall i | 0 <= i < |rules| :: SpecAccepts(specs, rules[i])
    ensures r.Some? ==> r.value.Keys == meta.Keys + FiringKeys(specs, rules)
    ensures r.Some? ==> forall k | k in meta && k !in FiringKeys(specs, rules) :: r.value[k] == meta[k]
    ensures r.Some? && Distinct(rules) ==>
      forall i | 0 <= i < |rules| && Truthy(Get(specs, rules[i].key, Null)) ::
        Some(r.value[rules[i].key]) == Apply(rules[i].rule, specs[rules[i].key])
    decreases |rules|
  {
    if |rules| == 0 then Some(meta)
    else
      var f := rules[0];
      assert forall i | 1 <= i < |rules| :: rules[i] == rules[1..][i - 1];
      FiringKeysCons(specs, rules);
      if !Truthy(Get(specs, f.key, Null)) then AddSpecs(meta, specs, rules[1..])
      else
        match Apply(f.rule, specs[f.key])
        case None => None
        case Some(v) => AddSpecs(meta[f.key := v], specs, rules[1..])
  }

  /** The metadata projection under a pair of rule tables: the dict
      literal, then the spec statements on the product's spec dict. */
  function Project(p: map<string, Value>, base: seq<FieldRule<Rule>>, spec: seq<FieldRule<Rule>>): Option<map<string, Value>> {
    match BaseFields(p, base)
    case None => None
    case Some(fields) =>
      if "specs" in p && p["specs"].Obj? then AddSpecs(fields, p["specs"].fields, spec) else None
  }

  /** The shape of a product the projection accepts, independent of how it
      walks the tables: every field of the dict literal is present (and a
      string where it is cut), the specs are a dict, and every truthy spec it
      reads is a string where it is cut. */
  predicate Fits(p: map<string, Value>, base: seq<FieldRule<Rule>>, spec: seq<FieldRule<Rule>>) {
    && (forall i | 0 <= i < |base| :: base[i].key in p && (base[i].rule.CutText? ==> p[base[i].key].Str?))
    && "specs" in p && p["specs"].Obj?
    && forall i | 0 <= i < |spec| && Truthy(Get(p["specs"].fields, spec[i].key, Null)) ::
         spec[i].rule.CutText? ==> p["specs"].fields[spec[i].key].Str?
  }

  /** The projection is defined exactly on the products that fit. */
  lemma ProjectDefinedIff(p: map<string, Value>, base: seq<FieldRule<Rule>>, spec: seq<FieldRule<Rule>>)
    ensures Project(p, base, spec).Some? <==> Fits(p, base, spec)
  {
    if Fits(p, base, spec) {
      assert forall i | 0 <= i < |base| :: BaseAccepts(p, base[i]);
      assert forall i | 0 <= i < |spec| :: SpecAccepts(p["specs"].fields, spec[i]);
    }
  }

  /** What the projection holds when the tables write distinct keys and
      every spec statement cuts its value. */
  lemma ProjectContents(p: map<string, Value>, base: seq<FieldRule<Rule>>, spec: seq<FieldRule<Rule>>)
    requires Fits(p, base, spec)
    requires Distinct(base) && Distinct(spec) && KeysOf(base) !! KeysOf(spec)
    requires forall i | 0 <= i < |spec| :: spec[i].rule.CutText?
    ensures Project(p, base, spec).Some?
    ensures var m := Project(p, base, spec).value;
      && m.Keys == KeysOf(base) + FiringKeys(p["specs"].fields, spec)
      && (forall i | 0 <= i < |base| ::
            base[i].key in m && Some(m[base[i].key]) == Apply(base[i].rule, p[base[i].key]))
      && forall i | 0 <= i < |spec| && Truthy(Get(p["specs"].fields, spec[i].key, Null)) ::
           spec[i].key in m && CutTo(p["specs"].fields[spec[i].key], m[spec[i].key], spec[i].rule.limit)
  {
    ProjectDefinedIff(p, base, spec);
    var specs := p["specs"].fields;
    assert FiringKeys(specs, spec) <= KeysOf(spec);
    assert forall i | 0 <= i < |base| :: base[i].key in KeysOf(base);
  }

  /** The script's rule tables write each key once, no spec key is a base
      key, and every spec statement cuts its value. */
  lemma RuleTablesWellFormed(base: seq<FieldRule<Rule>>, spec: seq<FieldRule<Rule>>)
    requires base == BaseRules && spec == SpecRules
    ensures Distinct(base) && Distinct(spec)
    ensures KeysOf(base) !! KeysOf(spec)
    ensures forall i | 0 <= i < |spec| :: spec[i].rule.CutText?
  {
    forall i, j | 0 <= i < j < |base| ensures base[i].key != base[j].key {
      var keys := ["name", "price_min", "price_max", "category", "brand", "source", "url", "image", "warranty"];
      assert forall k | 0 <= k < |keys| :: base[k].key == keys[k];
    }
    forall i, j | 0 <= i < |base| && 0 <= j < |spec| ensures base[i].key != spec[j].key {
    }
  }

  /** The metadata dict the script builds for one product; `None` when
      building it raises. */
  function Metadata(p: map<string, Value>): Option<map<string, Value>> {
    Project(p, BaseRules, SpecRules)
  }

  /** The products the script can build metadata for. */
  predicate Exportable(p: map<string, Value>) {
    Fits(p, BaseRules, SpecRules)
  }

  /** Metadata is built exactly for exportable products. */
  lemma MetadataDefinedIff(p: map<string, Value>)
    ensures Metadata(p).Some? <==> Exportable(p)
  {
    ProjectDefinedIff(p, BaseRules, SpecRules);
  }

  /** The metadata has every key of the dict literal, and a spec key exactly
      when that spec is truthy. */
  lemma MetadataKeys(p: map<string, Value>)
    requires Exportable(p)
    ensures Metadata(p).Some?
    ensures Metadata(p).value.Keys == KeysOf(BaseRules) + FiringKeys(p["specs"].fields, SpecRules)
  {
    var base, spec := BaseRules, SpecRules;
    RuleTablesWellFormed(base, spec);
    ProjectContents(p, base, spec);
  }

  /** Each field of the dict literal holds its rule's result on the product
      field of the same name. */
  lemma MetadataField(p: map<string, Value>, i: nat)
    requires Exportable(p) && i < |BaseRules|
    ensures Metadata(p).Some?
    ensures BaseRules[i].key in Metadata(p).value
    ensures Some(Metadata(p).value[BaseRules[i].key]) == Apply(BaseRules[i].rule, p[BaseRules[i].key])
  {
    var base, spec := BaseRules, SpecRules;
    RuleTablesWellFormed(base, spec);
    ProjectContents(p, base, spec);
  }

  /** Each truthy spec is in the metadata, cut to its limit. */
  lemma MetadataSpecField(p: map<string, Value>, i: nat)
    requires Exportable(p) && i < |SpecRules|
    requires Truthy(Get(p["specs"].fields, SpecRules[i].key, Null))
    ensures Metadata(p).Some?
    ensures var f, specs := SpecRules[i], p["specs"].fields;
      && f.rule.CutText? && f.key in specs && f.key in Metadata(p).value
      && CutTo(specs[f.key], Metadata(p).value[f.key], f.rule.limit)
  {
    var base, spec := BaseRules, SpecRules;
    RuleTablesWellFormed(base, spec);
    ProjectContents(p, base, spec);
  }

  /** The prices are sent as they are, a falsy one as 0; unlike the other
      upload script, a zero price is kept. */
  lemma MetadataPrices(p: map<string, Value>)
    requires Exportable(p)
    ensures Metadata(p).Some?
    ensures var m := Metadata(p).value;
      && "price_min" in m && m["price_min"] == OrZero(p["price_min"])
      && "price_max" in m && m["price_max"] == OrZero(p["price_max"])
  {
    assert BaseRules[1] == FieldRule("price_min", ZeroIfFalsy);
    MetadataField(p, 1);
    assert BaseRules[2] == FieldRule("price_max", ZeroIfFalsy);
    MetadataField(p, 2);
  }

  /** `(product['id'], embeddings[i].tolist(), metadata)`. */
  function VectorOf(p: map<string, Value>, row: seq<real>): (r: Option<Vector>)
    ensures r.Some? <==> Metadata(p).Some? && "id" in p
    ensures r.Some? ==> r.value == Vector(p["id"], row, Metadata(p).value)
  {
    match Metadata(p)
    case None => None
    case Some(m) => if "id" in p then Some(Vector(p["id"], row, m)) else None
  }

  /** The count guard, then the preparation loop. */
  function BuildVectors(products: seq<map<string, Value>>, embeddings: seq<seq<real>>)
    : (r: Result<seq<Vector>, UploadError>)
    ensures r == Err(CountMismatch(|products|, |embeddings|)) <==> |products| != |embeddings|
    ensures r.Ok? ==>
      && |r.value| == |products|
      && forall i | 0 <= i < |products| :: VectorOf(products[i], embeddings[i]) == Some(r.value[i])
    ensures r.Err? && r.error.MalformedProduct? ==>
      && |products| == |embeddings|
      && r.error.index < |products|
      && VectorOf(products[r.error.index], embeddings[r.error.index]).None?
      && forall j | 0 <= j < r.error.index :: VectorOf(products[j], embeddings[j]).Some?
  {
    if |products| != |embeddings| then Err(CountMismatch(|products|, |embeddings|))
    else
      match PrepareFrom(products, embeddings, VectorOf, 0)
      case Ok(vectors) => Ok(vectors)
      case Err(i) => Err(MalformedProduct(i))
  }

  /** The script prepares every vector exactly when the counts agree and
      every product is exportable and has an id; otherwise it stops at the
      first product that is not. Vector `i` carries product `i`'s id,
      embedding row `i` and product `i`'s metadata. */
  lemma BuildVectorsSpec(products: seq<map<string, Value>>, embeddings: seq<seq<real>>)
    ensures var r := BuildVectors(products, embeddings);
      && (r.Ok? <==> |products| == |embeddings| && forall i | 0 <= i < |products| :: Exportable(products[i]) && "id" in products[i])
      && (r.Ok? ==> forall i | 0 <= i < |products| ::
            r.value[i] == Vector(products[i]["id"], embeddings[i], Metadata(products[i]).value))
      && (r.Err? && r.error.MalformedProduct? ==>
            && !(Exportable(products[r.error.index]) && "id" in products[r.error.index])
            && forall j | 0 <= j < r.error.index :: Exportable(products[j]) && "id" in products[j])
  {
    forall i | 0 <= i < |products| {
      MetadataDefinedIff(products[i]);
    }
  }

  /** The data path of the script's main function, from the loaded products
      and embedding rows to the upsert calls it makes. */
  method Upload(products: seq<map<string, Value>>, embeddings: seq<seq<real>>,
                accepts: (string, seq<Vector>) -> bool)
    returns (outcome: Outcome<UploadError>, calls: seq<Upsert<Vector>>)
    ensures outcome.Aborted? <==> BuildVectors(products, embeddings).Err?
    ensures outcome.Aborted? ==> outcome.error == BuildVectors(products, embeddings).error && calls == []
    ensures !outcome.Aborted? ==>
      var vectors := BuildVectors(products, embeddings).value;
      && |calls| <= NumBatches(|products|)
      && (forall k | 0 <= k < |calls| :: calls[k] == Upsert(DefaultNamespace, Batches(vectors)[k]))
    ensures outcome.Completed? ==>
      outcome.uploaded == |products| && Sent(calls) == BuildVectors(products, embeddings).value
    ensures outcome.Interrupted? ==>
      |calls| >= 1 && outcome.uploaded == BatchSize * (|calls| - 1) < |products|
    ensures outcome.Completed? <==>
      && BuildVectors(products, embeddings).Ok?
      && forall k | 0 <= k < NumBatches(|BuildVectors(products, embeddings).value|) ::
           accepts(DefaultNamespace, Batches(BuildVectors(products, embeddings).value)[k])
    ensures outcome.Interrupted? ==>
      && |calls| >= 1
      && (forall k | 0 <= k < |calls| - 1 :: accepts(DefaultNamespace, calls[k].batch))
      && !accepts(DefaultNamespace, calls[|calls| - 1].batch)
  {
    var built := BuildVectors(products, embeddings);
    if built.Err? {
      return Aborted(built.error), [];
    }
    var uploaded: nat, ok: bool;
    calls, uploaded, ok := UploadInBatches(built.value, DefaultNamespace, accepts);
    outcome := if ok then Completed(uploaded) else Interrupted(uploaded);
  }
}

=== FILE: pipeline.dfy ===
/** How the stages fit together: what the two upload scripts make of the
    records the preprocessing script writes. */
module Pipeline {
  import opened Wrappers
  import opened Values
  import opened Records
  import OpenAIUpload
  import HFUpload

  /** Every preprocessed record has the shape the OpenAI script's metadata
      code needs. */
  lemma RecordIsExportable(rec: ProductRecord)
    ensures OpenAIUpload.Exportable(ToJson(rec))
  {
    var d := ToJson(rec);
    forall i | 0 <= i < |OpenAIUpload.BaseRules|
      ensures OpenAIUpload.BaseRules[i].key in d
      ensures OpenAIUpload.BaseRules[i].rule.CutText? ==> d[OpenAIUpload.BaseRules[i].key].Str?
    {
    }
  }

  /** Integer prices reach the OpenAI metadata unchanged, zero included. */
  lemma IntPricesKept(d: map<string, Value>, lo: nat, hi: nat)
    requires OpenAIUpload.Exportable(d)
    requires "price_min" in d && d["price_min"] == Int(lo)
    requires "price_max" in d && d["price_max"] == Int(hi)
    ensures OpenAIUpload.Metadata(d).Some?
    ensures "price_min" in OpenAIUpload.Metadata(d).value && OpenAIUpload.Metadata(d).value["price_min"] == Int(lo)
    ensures "price_max" in OpenAIUpload.Metadata(d).value && OpenAIUpload.Metadata(d).value["price_max"] == Int(hi)
  {
    OpenAIUpload.MetadataPrices(d);
  }

  /** Every preprocessed record passes the OpenAI script's metadata code,
      with its prices carried over unchanged. */
  lemma OpenAIExportsEveryRecord(rec: ProductRecord)
    ensures OpenAIUpload.Metadata(ToJson(rec)).Some? && "id" in ToJson(rec)
    ensures var m := OpenAIUpload.Metadata(ToJson(rec)).value;
      && "price_min" in m && m["price_min"] == Int(rec.priceMin)
      && "price_max" in m && m["price_max"] == Int(rec.priceMax)
  {
    var d := ToJson(rec);
    RecordIsExportable(rec);
    IntPricesKept(d, rec.priceMin, rec.priceMax);
  }

  /** A product with a name, a dict of specs, a string brand and integer
      prices passes the HuggingFace script's metadata code; the brand is
      dropped exactly when empty and a price is sent exactly when not zero. */
  lemma HFStringBrandIntPrices(d: map<string, Value>, brand: string, lo: int, hi: int)
    requires "name" in d && "specs" in d && d["specs"].Obj?
    requires "brand" in d && d["brand"] == Str(brand)
    requires "price_min" in d && d["price_min"] == Int(lo)
    requires "price_max" in d && d["price_max"] == Int(hi)
    ensures HFUpload.Uploadable(d) && HFUpload.Metadata(d).Some?
    ensures var m := HFUpload.Metadata(d).value;
      && (brand == "" ==> "brand" !in m)
      && (brand != "" ==> "brand" in m && m["brand"] == Str(brand))
      && ("price_min" in m <==> lo != 0)
      && ("price_max" in m <==> hi != 0)
  {
    assert HFUpload.SpecsOf(d) == d["specs"];
    assert HFUpload.Uploadable(d);
    HFUpload.MetadataDefinedIff(d);
    HFUpload.MetadataBrand(d);
    HFUpload.MetadataPrices(d);
  }

  /** Every preprocessed record passes the HuggingFace script's metadata
      code. The brand default 'Unknown' never applies, since the record
      always has a brand key: an empty brand is dropped instead. A price is
      sent exactly when it is not zero. */
  lemma HFUploadsEveryRecord(rec: ProductRecord)
    ensures HFUpload.Uploadable(ToJson(rec)) && HFUpload.Metadata(ToJson(rec)).Some?
    ensures var m := HFUpload.Metadata(ToJson(rec)).value;
      && (rec.brand == "" ==> "brand" !in m)
      && (rec.brand != "" ==> "brand" in m && m["brand"] == Str(rec.brand))
      && ("price_min" in m <==> rec.priceMin != 0)
      && ("price_max" in m <==> rec.priceMax != 0)
  {
    var d := ToJson(rec);
    HFStringBrandIntPrices(d, rec.brand, rec.priceMin, rec.priceMax);
  }

  /** Uploading the same preprocessed records with both scripts puts the
      same ids in both namespaces, in the same order. */
  lemma UploadsShareIds(records: seq<ProductRecord>, products: seq<map<string, Value>>,
                        openaiRows: seq<seq<real>>, hfRows: HFUpload.Matrix)
    requires |products| == |records|
    requires forall i | 0 <= i < |records| :: products[i] == ToJson(records[i])
    requires OpenAIUpload.BuildVectors(products, openaiRows).Ok?
    requires HFUpload.BuildRecords(products, hfRows).Ok?
    ensures var a := OpenAIUpload.BuildVectors(products, openaiRows).value;
      var b := HFUpload.BuildRecords(products, hfRows).value;
      && |a| == |b| == |records|
      && forall i | 0 <= i < |records| :: a[i].id == b[i].id == Str(records[i].id)
  {
  }
}

=== FILE: price.dfy ===
/** `parse_price` of the preprocessing script: the raw catalogue price text
    (for instance "24,499৳28,100৳") becomes an optional (min, max) pair. */
module Price {
  import opened Wrappers
  import opened Text

  /** The Bengali taka sign that follows each amount in the catalogue. */
  const Taka: char := '\U{09F3}'

  /** A character of the class `[\d,]`. */
  predicate IsRunChar(c: char) {
    IsDigit(c) || c == ','
  }

  predicate AllRunChars(s: string) {
    forall i | 0 <= i < |s| :: IsRunChar(s[i])
  }

  predicate NoRunChars(s: string) {
    forall i | 0 <= i < |s| :: !IsRunChar(s[i])
  }

  /** The length of the longest prefix of `s` made of `[\d,]` characters. */
  function RunLength(s: string): (n: nat)
    ensures n <= |s|
    ensures AllRunChars(s[..n])
    ensures n < |s| ==> !IsRunChar(s[n])
    decreases |s|
  {
    if |s| == 0 || !IsRunChar(s[0]) then 0
    else
      var n := 1 + RunLength(s[1..]);
      assert s[..n] == [s[0]] + s[1..][..n - 1];
      n
  }

  /** `re.findall(r'[\d,]+', s)`: the maximal runs of digits and commas, left
      to right. */
  function Runs(s: string): (runs: seq<string>)
    ensures forall k | 0 <= k < |runs| :: |runs[k]| >= 1 && AllRunChars(runs[k])
    decreases |s|
  {
    if |s| == 0 then []
    else if !IsRunChar(s[0]) then Runs(s[1..])
    else
      var n := RunLength(s);
      [s[..n]] + Runs(s[n..])
  }

  /** One run as `int(p.replace(',', ''))`, kept only when what remains
      `isdigit()` (so a run of commas alone yields nothing). */
  function RunValue(run: string): Option<nat> {
    var digits := StripCommas(run);
    if |digits| > 0 && AllDigits(digits) then Some(DigitsValue(digits)) else None
  }

  /** The numbers the comprehension keeps, in the order the runs appear. */
  function Values(runs: seq<string>): seq<nat>
    decreases |runs|
  {
    if |runs| == 0 then []
    else
      var v := RunValue(runs[0]);
      (if v.Some? then [v.value] else []) + Values(runs[1..])
  }

  function Numbers(s: string): seq<nat> {
    Values(Runs(s))
  }

  /** The smallest element, Python's `min(prices)`. */
  function SeqMin(xs: seq<nat>): (m: nat)
    requires |xs| >= 1
    ensures m in xs
    ensures forall k | 0 <= k < |xs| :: m <= xs[k]
    decreases |xs|
  {
    if |xs| == 1 then xs[0]
    else
      var rest := SeqMin(xs[1..]);
      if xs[0] <= rest then xs[0] else rest
  }

  /** The largest element, Python's `max(prices)`. */
  function SeqMax(xs: seq<nat>): (m: nat)
    requires |xs| >= 1
    ensures m in xs
    ensures forall k | 0 <= k < |xs| :: xs[k] <= m
    decreases |xs|
  {
    if |xs| == 1 then xs[0]
    else
      var rest := SeqMax(xs[1..]);
      if xs[0] >= rest then xs[0] else rest
  }

  /** A parsed price: the lowest and highest amount in the text. */
  datatype PriceRange = PriceRange(min: nat, max: nat)

  /** `parse_price(price_str)`. `None` stands for both the NaN cell and the
      `(None, None)` result; the two halves of the source's pair are either
      both `None` or both numbers. */
  function ParsePrice(price: Option<string>): (r: Option<PriceRange>)
    ensures price.None? ==> r.None?
    ensures price.Some? ==> (r.None? <==> |Numbers(price.value)| == 0)
    ensures r.Some? ==> r.value.min <= r.value.max
    ensures r.Some? ==> r.value.min in Numbers(price.value) && r.value.max in Numbers(price.value)
    ensures r.Some? ==> forall k | 0 <= k < |Numbers(price.value)| ::
      r.value.min <= Numbers(price.value)[k] <= r.value.max
  {
    if price.None? then None
    else
      var prices := Numbers(price.value);
      if |prices| == 0 then None
      else if |prices| == 1 then Some(PriceRange(prices[0], prices[0]))
      else Some(PriceRange(SeqMin(prices), SeqMax(prices)))
  }

  // ---------------------------------------------------------------------------
  // A price is found exactly when the text has a digit
  // ---------------------------------------------------------------------------

  lemma RunValueOfRun(run: string)
    requires AllRunChars(run)
    ensures RunValue(run).Some? <==> HasDigit(run)
  {
    StripCommasOfRun(run);
  }

  /** Stripping the commas of a run leaves exactly its digits. */
  lemma {:induction false} StripCommasOfRun(run: string)
    requires AllRunChars(run)
    ensures AllDigits(StripCommas(run))
    ensures |StripCommas(run)| > 0 <==> HasDigit(run)
    decreases |run|
  {
    if |run| > 0 {
      StripCommasOfRun(run[1..]);
      var head := if run[0] == ',' then "" else [run[0]];
      assert StripCommas(run) == head + StripCommas(run[1..]);
      AllDigitsAppend(head, StripCommas(run[1..]));
      if HasDigit(run[1..]) {
        var i :| 0 <= i < |run[1..]| && IsDigit(run[1..][i]);
        assert IsDigit(run[i + 1]);
      }
      if HasDigit(run) && run[0] == ',' {
        var i :| 0 <= i < |run| && IsDigit(run[i]);
        assert IsDigit(run[1..][i - 1]);
      }
    }
  }

  lemma {:induction false} ValuesAppend(a: seq<string>, b: seq<string>)
    ensures Values(a + b) == Values(a) + Values(b)
    decreases |a|
  {
    if |a| == 0 {
      assert a + b == b;
    } else {
      var v := RunValue(a[0]);
      var head := if v.Some? then [v.value] else [];
      assert (a + b)[0] == a[0];
      assert (a + b)[1..] == a[1..] + b;
      assert Values(a + b) == head + Values(a[1..] + b);
      ValuesAppend(a[1..], b);
      assert head + (Values(a[1..]) + Values(b)) == (head + Values(a[1..])) + Values(b);
    }
  }

  lemma HasDigitSplit(s: string, n: nat)
    requires n <= |s|
    ensures HasDigit(s) <==> HasDigit(s[..n]) || HasDigit(s[n..])
  {
    if HasDigit(s) {
      var i :| 0 <= i < |s| && IsDigit(s[i]);
      if i < n { assert s[..n][i] == s[i]; } else { assert s[n..][i - n] == s[i]; }
    }
    if HasDigit(s[..n]) {
      var i :| 0 <= i < n && IsDigit(s[..n][i]);
      assert s[i] == s[..n][i];
    }
    if HasDigit(s[n..]) {
      var i :| 0 <= i < |s| - n && IsDigit(s[n..][i]);
      assert s[n + i] == s[n..][i];
    }
  }

  /** `parse_price` gives up exactly when the text holds no digit at all. */
  lemma {:induction false} NumbersEmptyIffNoDigit(s: string)
    ensures |Numbers(s)| == 0 <==> !HasDigit(s)
    decreases |s|
  {
    if |s| == 0 {
    } else if !IsRunChar(s[0]) {
      NumbersEmptyIffNoDigit(s[1..]);
      HasDigitSplit(s, 1);
    } else {
      var n := RunLength(s);
      var run := s[..n];
      assert Runs(s) == [run] + Runs(s[n..]);
      ValuesAppend([run], Runs(s[n..]));
      RunValueOfRun(run);
      NumbersEmptyIffNoDigit(s[n..]);
      HasDigitSplit(s, n);
    }
  }

  /** The None result of `parse_price`: a missing cell or a text without digits. */
  lemma ParsePriceNoneIff(price: Option<string>)
    ensures ParsePrice(price).None? <==> price.None? || !HasDigit(price.value)
  {
    if price.Some? {
      NumbersEmptyIffNoDigit(price.value);
    }
  }

  // ---------------------------------------------------------------------------
  // How `findall` splits texts built from numerals and separators
  // ---------------------------------------------------------------------------

  /** Text without digits or commas contributes no run. */
  lemma {:induction false} RunsSkipGap(gap: string, rest: string)
    requires NoRunChars(gap)
    ensures Runs(gap + rest) == Runs(rest)
    decreases |gap|
  {
    if |gap| > 0 {
      assert (gap + rest)[0] == gap[0];
      assert (gap + rest)[1..] == gap[1..] + rest;
      RunsSkipGap(gap[1..], rest);
    } else {
      assert gap + rest == rest;
    }
  }

  lemma {:induction false} RunLengthOfRun(run: string, rest: string)
    requires AllRunChars(run)
    requires |rest| == 0 || !IsRunChar(rest[0])
    ensures RunLength(run + rest) == |run|
    decreases |run|
  {
    if |run| > 0 {
      assert (run + rest)[1..] == run[1..] + rest;
      RunLengthOfRun(run[1..], rest);
    } else {
      assert run + rest == rest;
    }
  }

  /** A maximal run followed by a separator is one element of `findall`. */
  lemma RunsOfRunThenGap(run: string, gap: string, rest: string)
    requires |run| >= 1 && AllRunChars(run)
    requires NoRunChars(gap) && (|gap| >= 1 || |rest| == 0)
    ensures Runs(run + gap + rest) == [run] + Runs(rest)
  {
    var s := run + gap + rest;
    assert s == run + (gap + rest);
    RunLengthOfRun(run, gap + rest);
    assert s[..|run|] == run;
    assert s[|run|..] == gap + rest;
    RunsSkipGap(gap, rest);
  }

  /** `gaps[0] + runs[0] + gaps[1] + ... + runs[k-1] + gaps[k]`. */
  function Interleave(gaps: seq<string>, runs: seq<string>): string
    requires |gaps| == |runs| + 1
    decreases |runs|
  {
    if |runs| == 0 then gaps[0] else gaps[0] + runs[0] + Interleave(gaps[1..], runs[1..])
  }

  /** `runs` are the maximal runs of `[\d,]` in `Interleave(gaps, runs)`:
      non-empty runs of digits and commas, separated by non-empty gaps free
      of them (the gaps at either end may be empty). */
  predicate MaximalRuns(gaps: seq<string>, runs: seq<string>) {
    && |gaps| == |runs| + 1
    && (forall k | 0 <= k < |runs| :: |runs[k]| >= 1 && AllRunChars(runs[k]))
    && (forall k | 0 <= k < |gaps| :: NoRunChars(gaps[k]))
    && (forall k | 0 < k < |runs| :: |gaps[k]| >= 1)
  }

  /** The text around and between the runs `findall` returns. */
  function RunGaps(s: string): (gaps: seq<string>)
    ensures |gaps| == |Runs(s)| + 1
    ensures |s| >= 1 && !IsRunChar(s[0]) ==> |gaps[0]| >= 1
    decreases |s|
  {
    if |s| == 0 then [""]
    else if !IsRunChar(s[0]) then
      var g := RunGaps(s[1..]);
      [[s[0]] + g[0]] + g[1..]
    else
      [""] + RunGaps(s[RunLength(s)..])
  }

  /** `findall` splits every text into its maximal runs and the gaps
      between them, in order, covering the text. */
  lemma RunsAreMaximal(s: string)
    ensures MaximalRuns(RunGaps(s), Runs(s))
    ensures Interleave(RunGaps(s), Runs(s)) == s
  {
    RunGapsSeparate(s);
    RunGapsCover(s);
  }

  lemma {:induction false} RunGapsSeparate(s: string)
    ensures MaximalRuns(RunGaps(s), Runs(s))
    decreases |s|
  {
    if |s| == 0 {
    } else if !IsRunChar(s[0]) {
      RunGapsSeparate(s[1..]);
      SeparateAfterGapChar(s);
    } else {
      RunGapsSeparate(s[RunLength(s)..]);
      SeparateAfterRun(s);
    }
  }

  lemma {:induction false} SeparateAfterGapChar(s: string)
    requires |s| >= 1 && !IsRunChar(s[0])
    requires MaximalRuns(RunGaps(s[1..]), Runs(s[1..]))
    ensures MaximalRuns(RunGaps(s), Runs(s))
  {
    var g := RunGaps(s[1..]);
    assert RunGaps(s) == [[s[0]] + g[0]] + g[1..];
    GapCharKeepsMaximal(s[0], g, Runs(s[1..]));
  }

  lemma {:induction false} SeparateAfterRun(s: string)
    requires |s| >= 1 && IsRunChar(s[0])
    requires MaximalRuns(RunGaps(s[RunLength(s)..]), Runs(s[RunLength(s)..]))
    ensures MaximalRuns(RunGaps(s), Runs(s))
  {
    var n := RunLength(s);
    var t := s[n..];
    var g, r := RunGaps(t), Runs(t);
    assert Runs(s) == [s[..n]] + r;
    assert RunGaps(s) == [""] + g;
    assert |r| >= 1 ==> |g[0]| >= 1 by {
      if |r| >= 1 {
        assert |t| >= 1 && !IsRunChar(t[0]);
      }
    }
    RunKeepsMaximal(s[..n], g, r);
  }

  /** A separator character joins the first gap. */
  lemma {:induction false} GapCharKeepsMaximal(c: char, gaps: seq<string>, runs: seq<string>)
    requires !IsRunChar(c) && MaximalRuns(gaps, runs)
    ensures MaximalRuns([[c] + gaps[0]] + gaps[1..], runs)
  {
    var gaps' := [[c] + gaps[0]] + gaps[1..];
    assert forall k | 1 <= k < |gaps'| :: gaps'[k] == gaps[k];
    assert NoRunChars(gaps'[0]) by {
      assert forall i | 1 <= i < |gaps'[0]| :: gaps'[0][i] == gaps[0][i - 1];
    }
  }

  /** A run in front starts a new element, after an empty first gap. */
  lemma {:induction false} RunKeepsMaximal(run: string, gaps: seq<string>, runs: seq<string>)
    requires |run| >= 1 && AllRunChars(run) && MaximalRuns(gaps, runs)
    requires |runs| >= 1 ==> |gaps[0]| >= 1
    ensures MaximalRuns([""] + gaps, [run] + runs)
  {
    var gaps', runs' := [""] + gaps, [run] + runs;
    assert forall k | 1 <= k < |gaps'| :: gaps'[k] == gaps[k - 1];
    assert forall k | 1 <= k < |runs'| :: runs'[k] == runs[k - 1];
  }

  lemma {:induction false} RunGapsCover(s: string)
    ensures Interleave(RunGaps(s), Runs(s)) == s
    decreases |s|
  {
    if |s| == 0 {
    } else if !IsRunChar(s[0]) {
      RunGapsCover(s[1..]);
      CoverAfterGapChar(s);
    } else {
      RunGapsCover(s[RunLength(s)..]);
      CoverAfterRun(s);
    }
  }

  lemma {:induction false} CoverAfterGapChar(s: string)
    requires |s| >= 1 && !IsRunChar(s[0])
    requires Interleave(RunGaps(s[1..]), Runs(s[1..])) == s[1..]
    ensures Interleave(RunGaps(s), Runs(s)) == s
  {
    var g := RunGaps(s[1..]);
    assert RunGaps(s) == [[s[0]] + g[0]] + g[1..];
    InterleaveGapChar(s[0], g, Runs(s[1..]));
    assert [s[0]] + s[1..] == s;
  }

  lemma {:induction false} CoverAfterRun(s: string)
    requires |s| >= 1 && IsRunChar(s[0])
    requires Interleave(RunGaps(s[RunLength(s)..]), Runs(s[RunLength(s)..])) == s[RunLength(s)..]
    ensures Interleave(RunGaps(s), Runs(s)) == s
  {
    var n := RunLength(s);
    var g, r := RunGaps(s[n..]), Runs(s[n..]);
    assert Runs(s) == [s[..n]] + r;
    assert RunGaps(s) == [""] + g;
    InterleaveRun(s[..n], g, r);
    TakeDropJoin(s, n);
  }

  lemma {:induction false} InterleaveGapChar(c: char, gaps: seq<string>, runs: seq<string>)
    requires |gaps| == |runs| + 1
    ensures Interleave([[c] + gaps[0]] + gaps[1..], runs) == [c] + Interleave(gaps, runs)
  {
    var gaps' := [[c] + gaps[0]] + gaps[1..];
    if |runs| > 0 {
      assert gaps'[1..] == gaps[1..];
      var tail := Interleave(gaps[1..], runs[1..]);
      assert ([c] + gaps[0]) + runs[0] + tail == [c] + (gaps[0] + runs[0] + tail);
    }
  }

  lemma {:induction false} InterleaveRun(run: string, gaps: seq<string>, runs: seq<string>)
    requires |gaps| == |runs| + 1
    ensures Interleave([""] + gaps, [run] + runs) == run + Interleave(gaps, runs)
  {
    var gaps', runs' := [""] + gaps, [run] + runs;
    assert gaps'[0] == "" && runs'[0] == run;
    assert gaps'[1..] == gaps && runs'[1..] == runs;
    var tail := Interleave(gaps, runs);
    assert Interleave(gaps', runs') == "" + run + tail;
    assert "" + run + tail == run + tail;
  }

  lemma TakeDropJoin(s: string, n: nat)
    requires n <= |s|
    ensures s[..n] + s[n..] == s
  {
  }

  lemma {:induction false} MaximalRunsAreRuns(gaps: seq<string>, runs: seq<string>)
    requires MaximalRuns(gaps, runs)
    ensures Runs(Interleave(gaps, runs)) == runs
    decreases |runs|
  {
    if |runs| == 0 {
      RunsSkipGap(gaps[0], "");
      assert gaps[0] + "" == gaps[0];
    } else {
      var g, r := gaps[1..], runs[1..];
      MaximalRunsTail(gaps, runs);
      MaximalRunsAreRuns(g, r);
      var t := Interleave(g, r);
      var rest := t[|g[0]|..];
      PeelFirstRun(gaps, runs);
      RunsSkipGap(g[0], rest);
      RunsStep(gaps[0], runs[0], g[0], rest);
      assert [runs[0]] + r == runs;
    }
  }

  /** Peeling the first gap and run off an interleaving leaves the next gap
      and whatever follows it. */
  lemma {:induction false} PeelFirstRun(gaps: seq<string>, runs: seq<string>)
    requires MaximalRuns(gaps, runs) && |runs| >= 1
    ensures var g := gaps[1..];
      var t := Interleave(g, runs[1..]);
      && |g[0]| <= |t|
      && t == g[0] + t[|g[0]|..]
      && (|g[0]| >= 1 || |t[|g[0]|..]| == 0)
      && Interleave(gaps, runs) == gaps[0] + (runs[0] + (g[0] + t[|g[0]|..]))
  {
    var g, r := gaps[1..], runs[1..];
    var t := Interleave(g, r);
    FirstGapOf(g, r);
    TakeDropJoin(t, |g[0]|);
    if |r| >= 1 {
      assert |gaps[1]| >= 1;
    }
    assert Interleave(gaps, runs) == gaps[0] + runs[0] + t;
  }

  /** A gap, a run and a separated remainder: the run is the first element. */
  lemma {:induction false} RunsStep(gap: string, run: string, sep: string, rest: string)
    requires NoRunChars(gap) && |run| >= 1 && AllRunChars(run)
    requires NoRunChars(sep) && (|sep| >= 1 || |rest| == 0)
    ensures Runs(gap + (run + (sep + rest))) == [run] + Runs(rest)
  {
    RunsOfRunThenGap(run, sep, rest);
    assert run + sep + rest == run + (sep + rest);
    RunsSkipGap(gap, run + (sep + rest));
  }

  lemma {:induction false} MaximalRunsTail(gaps: seq<string>, runs: seq<string>)
    requires MaximalRuns(gaps, runs) && |runs| >= 1
    ensures MaximalRuns(gaps[1..], runs[1..])
  {
    var g, r := gaps[1..], runs[1..];
    assert forall k | 0 <= k < |r| :: r[k] == runs[k + 1];
    assert forall k | 0 <= k < |g| :: g[k] == gaps[k + 1];
  }

  /** An interleaving starts with its first gap, and after it comes either
      nothing or a run. */
  lemma {:induction false} FirstGapOf(gaps: seq<string>, runs: seq<string>)
    requires |gaps| == |runs| + 1
    ensures var t := Interleave(gaps, runs);
      && |gaps[0]| <= |t| && t[..|gaps[0]|] == gaps[0]
      && (|runs| == 0 ==> t == gaps[0])
      && (|runs| >= 1 ==> t[|gaps[0]|..] == runs[0] + Interleave(gaps[1..], runs[1..]))
      && (|runs| >= 1 ==> |runs[0]| >= 1 ==> |t| > |gaps[0]|)
  {
    if |runs| >= 1 {
      var t := Interleave(gaps, runs);
      var tail := runs[0] + Interleave(gaps[1..], runs[1..]);
      assert t == gaps[0] + tail;
    }
  }

  /** The value `parse_price` reads from a `{:,}` numeral is the number printed. */
  lemma RunValueOfGrouped(n: nat)
    ensures RunValue(FormatThousands(n)) == Some(n)
  {
    FormatThousandsValue(n);
  }

  /** A grouped numeral between two pieces of text without digits or commas
      parses to that number, as both bounds. */
  lemma ParseGroupedSingle(n: nat, lead: string, trail: string)
    requires NoRunChars(lead) && NoRunChars(trail)
    ensures ParsePrice(Some(lead + FormatThousands(n) + trail)) == Some(PriceRange(n, n))
  {
    var f := FormatThousands(n);
    assert lead + f + trail == lead + (f + trail + "");
    RunsSkipGap(lead, f + trail + "");
    RunsOfRunThenGap(f, trail, "");
    assert Runs("") == [];
    ValuesOfGrouped(n);
  }

  /** Round trip: `parse_price` of a price printed with `{:,}` is that price,
      as both bounds. */
  lemma ParseGroupedNumber(n: nat)
    ensures ParsePrice(Some(FormatThousands(n))) == Some(PriceRange(n, n))
  {
    ParseGroupedSingle(n, "", "");
    assert "" + FormatThousands(n) + "" == FormatThousands(n);
  }

  /** Two grouped numerals, each followed by a non-numeric separator, parse
      to the smaller and the larger of the two. */
  lemma ParseGroupedPair(a: nat, b: nat, gap1: string, gap2: string, lead: string)
    requires NoRunChars(lead)
    requires |gap1| >= 1 && NoRunChars(gap1)
    requires NoRunChars(gap2)
    ensures ParsePrice(Some(lead + FormatThousands(a) + gap1 + FormatThousands(b) + gap2))
         == Some(PriceRange(if a <= b then a else b, if a <= b then b else a))
  {
    var fa, fb := FormatThousands(a), FormatThousands(b);
    var s := lead + fa + gap1 + fb + gap2;
    RunsOfPair(fa, fb, gap1, gap2, lead);
    ValuesOfPair(a, b);
    ParseTwoNumbers(s, a, b);
  }

  lemma ValuesOfPair(a: nat, b: nat)
    ensures Values([FormatThousands(a), FormatThousands(b)]) == [a, b]
  {
    var fa, fb := FormatThousands(a), FormatThousands(b);
    ValuesOfGrouped(a);
    ValuesOfGrouped(b);
    ValuesAppend([fa], [fb]);
    assert [fa] + [fb] == [fa, fb];
  }

  lemma ValuesOfGrouped(n: nat)
    ensures Values([FormatThousands(n)]) == [n]
  {
    RunValueOfGrouped(n);
    assert [FormatThousands(n)][1..] == [];
  }

  lemma ParseTwoNumbers(s: string, a: nat, b: nat)
    requires Numbers(s) == [a, b]
    ensures ParsePrice(Some(s)) == Some(PriceRange(if a <= b then a else b, if a <= b then b else a))
  {
    MinMaxOfPair(a, b);
  }

  lemma RunsOfPair(fa: string, fb: string, gap1: string, gap2: string, lead: string)
    requires IsGroupedNumeral(fa) && IsGroupedNumeral(fb)
    requires NoRunChars(lead)
    requires |gap1| >= 1 && NoRunChars(gap1)
    requires NoRunChars(gap2)
    ensures Runs(lead + fa + gap1 + fb + gap2) == [fa, fb]
  {
    var t2 := fb + gap2 + "";
    var t1 := fa + gap1 + t2;
    assert Runs(t2) == [fb] by {
      GroupedIsRun(fb);
      RunsOfRunThenGap(fb, gap2, "");
      assert Runs("") == [];
    }
    assert Runs(t1) == [fa] + Runs(t2) by {
      GroupedIsRun(fa);
      RunsOfRunThenGap(fa, gap1, t2);
    }
    assert Runs(lead + t1) == Runs(t1) by {
      RunsSkipGap(lead, t1);
    }
    ConcatRegroup(lead, fa, gap1, fb, gap2);
    assert [fa] + [fb] == [fa, fb];
  }

  lemma ConcatRegroup(a: string, b: string, c: string, d: string, e: string)
    ensures a + b + c + d + e == a + (b + c + (d + e + ""))
  {
    assert d + e + "" == d + e;
  }

  lemma GroupedIsRun(s: string)
    requires IsGroupedNumeral(s)
    ensures |s| >= 1 && AllRunChars(s)
  {
  }

  lemma MinMaxOfPair(a: nat, b: nat)
    ensures SeqMin([a, b]) == (if a <= b then a else b)
    ensures SeqMax([a, b]) == (if a <= b then b else a)
  {
    assert [a, b][1..] == [b];
  }

  /** The catalogue's two-amount form: "X৳Y৳" parses to the ordered pair. */
  lemma ParseTakaRange(a: nat, b: nat)
    ensures ParsePrice(Some(FormatThousands(a) + [Taka] + FormatThousands(b) + [Taka]))
         == Some(PriceRange(if a <= b then a else b, if a <= b then b else a))
  {
    ParseGroupedPair(a, b, [Taka], [Taka], "");
    assert "" + FormatThousands(a) == FormatThousands(a);
  }

  /** The catalogue's one-amount form: "X৳" parses to (X, X). */
  lemma ParseTakaSingle(n: nat)
    ensures ParsePrice(Some(FormatThousands(n) + [Taka])) == Some(PriceRange(n, n))
  {
    ParseGroupedSingle(n, "", [Taka]);
    assert "" + FormatThousands(n) + [Taka] == FormatThousands(n) + [Taka];
  }

  /** The first worked example in the docstring of `parse_price`. */
  lemma DocstringRangeExample()
    ensures ParsePrice(Some("24,499\U{09F3}28,100\U{09F3}")) == Some(PriceRange(24499, 28100))
  {
    RangeLiterals();
    TakaRangeLiteral(24499, 28100, "24,499", "28,100");
  }

  lemma RangeLiterals()
    ensures FormatThousands(24499) == "24,499" && FormatThousands(28100) == "28,100"
    ensures "24,499" + [Taka] + "28,100" + [Taka] == "24,499\U{09F3}28,100\U{09F3}"
  {
    GroupedLiteral(24, 499, "24,499");
    GroupedLiteral(28, 100, "28,100");
    RangeTextLiteral();
  }

  lemma RangeTextLiteral()
    ensures "24,499" + [Taka] + "28,100" + [Taka] == "24,499\U{09F3}28,100\U{09F3}"
  {
  }

  lemma TakaRangeLiteral(a: nat, b: nat, fa: string, fb: string)
    requires a <= b && FormatThousands(a) == fa && FormatThousands(b) == fb
    ensures ParsePrice(Some(fa + [Taka] + fb + [Taka])) == Some(PriceRange(a, b))
  {
    ParseTakaRange(a, b);
  }

  /** The second worked example in the docstring of `parse_price`. */
  lemma DocstringSingleExample()
    ensures ParsePrice(Some("93,900\U{09F3}")) == Some(PriceRange(93900, 93900))
  {
    GroupedLiteral(93, 900, "93,900");
    ParseTakaSingle(93900);
    assert "93,900" + [Taka] == "93,900\U{09F3}";
  }

  /** The third worked example in the docstring of `parse_price`. */
  lemma DocstringPlainExample()
    ensures ParsePrice(Some("50,000")) == Some(PriceRange(50000, 50000))
  {
    GroupedLiteral(50, 0, "50,000");
    ParseGroupedNumber(50000);
  }

  /** `{:,}` of a five-digit number `hi * 1000 + lo`. */
  lemma GroupedLiteral(hi: nat, lo: nat, text: string)
    requires 10 <= hi < 100 && lo < 1000
    requires |text| == 6 && text[2] == ','
    requires text[0] == DigitChar(hi / 10) && text[1] == DigitChar(hi % 10)
    requires text[3] == DigitChar(lo / 100) && text[4] == DigitChar(lo / 10 % 10) && text[5] == DigitChar(lo % 10)
    ensures FormatThousands(hi * 1000 + lo) == text
  {
    var n := hi * 1000 + lo;
    assert n / 1000 == hi && n % 1000 == lo;
    assert Decimal(hi) == [DigitChar(hi / 10), DigitChar(hi % 10)];
  }
}

=== FILE: records.dfy ===
/** The per-row product record of the preprocessing script's main loop,
    and the loop itself: rows without a name or a price are skipped, the
    others become records in row order. */
module Records {
  import opened Wrappers
  import opened Text
  import opened Price
  import opened KeySpecs
  import opened Content
  import opened Values

  const IdPrefix := "prod_"

  /** A cleaned product, as written to the processed product file. */
  datatype ProductRecord = ProductRecord(
    id: string,
    name: string,
    priceMin: nat,
    priceMax: nat,
    category: string,
    brand: string,
    source: string,
    url: string,
    image: string,
    specs: KeySpecs,
    warranty: string,
    searchContent: string)

  /** `f"prod_{sku}"` when the row has a SKU, else `f"prod_{idx}"`. */
  function ProductId(idx: nat, sku: Option<string>): (id: string)
    ensures StartsWith(id, IdPrefix)
    ensures id[|IdPrefix|..] == if sku.Some? then sku.value else Decimal(idx)
  {
    IdPrefix + (if sku.Some? then sku.value else Decimal(idx))
  }

  /** The record built for row `idx`, or `None` when the row is skipped. */
  function BuildRecord(idx: nat, row: RawRow): (r: Option<ProductRecord>)
    ensures r.None? <==> row.name.None? || row.price.None? || !HasDigit(row.price.value)
    ensures r.Some? ==>
      && r.value.id == ProductId(idx, row.sku)
      && r.value.name == row.name.value
      && Some(PriceRange(r.value.priceMin, r.value.priceMax)) == ParsePrice(row.price)
      && r.value.priceMin <= r.value.priceMax
      && r.value.category == row.category.GetOr("")
      && r.value.brand == row.brand.GetOr("")
      && r.value.source == row.source.GetOr("")
      && r.value.url == row.url.GetOr("")
      && r.value.image == row.image.GetOr("")
      && r.value.specs == ExtractKeySpecs(row.parsedSpecs)
      && |r.value.warranty| <= WarrantyLimit
      && (row.warrantyInfo.None? ==> r.value.warranty == "")
      && (row.warrantyInfo.Some? ==> StartsWith(row.warrantyInfo.value, r.value.warranty))
      && (row.warrantyInfo.Some? ==> r.value.warranty == Take(row.warrantyInfo.value, WarrantyLimit))
      && StartsWith(r.value.searchContent, "Product: " + row.name.value)
      && r.value.searchContent == SearchableContent(row, ParsePrice(row.price), r.value.specs)
  {
    ParsePriceNoneIff(row.price);
    var prices := ParsePrice(row.price);
    if row.name.None? || prices.None? then None
    else
      var specs := ExtractKeySpecs(row.parsedSpecs);
      var warranty := if row.warrantyInfo.Some? then Take(row.warrantyInfo.value, WarrantyLimit) else "";
      Some(ProductRecord(
        ProductId(idx, row.sku),
        row.name.value,
        prices.value.min,
        prices.value.max,
        row.category.GetOr(""),
        row.brand.GetOr(""),
        row.source.GetOr(""),
        row.url.GetOr(""),
        row.image.GetOr(""),
        specs,
        warranty,
        SearchableContent(row, prices, specs)))
  }

  /** The shape of the main loop: `build` is applied to each row with its
      index, in order; the rows it yields nothing for are counted as skipped.
      `origin[k]` is the row entry `k` of the result came from. */
  method Collect<R, P>(rows: seq<R>, build: (nat, R) -> Option<P>)
    returns (kept: seq<P>, skipped: nat, ghost origin: seq<nat>)
    ensures |kept| + skipped == |rows|
    ensures |origin| == |kept|
    ensures forall k | 0 <= k < |kept| :: origin[k] < |rows| && build(origin[k], rows[origin[k]]) == Some(kept[k])
    ensures forall k, l | 0 <= k < l < |origin| :: origin[k] < origin[l]
    ensures forall i | 0 <= i < |rows| :: build(i, rows[i]).Some? <==> i in origin
  {
    kept, skipped, origin := [], 0, [];
    var idx := 0;
    while idx < |rows|
      invariant idx <= |rows|
      invariant |kept| + skipped == idx
      invariant |origin| == |kept|
      invariant forall k | 0 <= k < |kept| :: origin[k] < idx && build(origin[k], rows[origin[k]]) == Some(kept[k])
      invariant forall k, l | 0 <= k < l < |origin| :: origin[k] < origin[l]
      invariant forall i | 0 <= i < idx :: build(i, rows[i]).Some? <==> i in origin
    {
      var item := build(idx, rows[idx]);
      if item.None? {
        skipped := skipped + 1;
      } else {
        kept := kept + [item.value];
        origin := origin + [idx];
      }
      idx := idx + 1;
    }
  }

  /** The main loop over the rows: the records in row order and the number
      of rows skipped. `origin[k]` is the row record `k` came from. */
  method Preprocess(rows: seq<RawRow>) returns (products: seq<ProductRecord>, skipped: nat, ghost origin: seq<nat>)
    ensures |products| + skipped == |rows|
    ensures |origin| == |products|
    ensures forall k | 0 <= k < |products| ::
      origin[k] < |rows| && BuildRecord(origin[k], rows[origin[k]]) == Some(products[k])
    ensures forall k, l | 0 <= k < l < |origin| :: origin[k] < origin[l]
    ensures forall i | 0 <= i < |rows| :: BuildRecord(i, rows[i]).Some? <==> i in origin
  {
    products, skipped, origin := Collect(rows, BuildRecord);
  }

  /** Rows without a SKU get distinct ids. */
  lemma IndexIdsDistinct(i: nat, j: nat)
    requires i != j
    ensures ProductId(i, None) != ProductId(j, None)
  {
    if Decimal(i) == Decimal(j) {
      DecimalInjective(i, j);
    }
  }

  /** Rows with different SKUs get distinct ids. */
  lemma SkuIdsDistinct(i: nat, j: nat, a: string, b: string)
    requires a != b
    ensures ProductId(i, Some(a)) != ProductId(j, Some(b))
  {
    assert ProductId(i, Some(a))[|IdPrefix|..] == a;
  }

  /** The two id schemes share one namespace: a SKU spelled like another
      row's index gives the same id. */
  lemma SkuMayCollideWithIndex()
    ensures ProductId(0, Some("7")) == ProductId(7, None)
  {
    assert Decimal(7) == "7";
  }

  /** The record as `json.dump` writes it; the graphics spec is stored under
      "graphics". */
  function ToJson(p: ProductRecord): (d: map<string, Value>)
    ensures d.Keys == {"id", "name", "price_min", "price_max", "category", "brand", "source",
                       "url", "image", "specs", "warranty", "search_content"}
    ensures d["specs"].Obj? && d["specs"].fields.Keys == {"processor", "ram", "storage", "graphics"}
    ensures d["id"] == Str(p.id) && d["brand"] == Str(p.brand)
    ensures d["price_min"] == Int(p.priceMin) && d["price_max"] == Int(p.priceMax)
    ensures d["name"].Str? && d["category"].Str? && d["url"].Str? && d["image"].Str? && d["warranty"].Str?
    ensures forall k | k in d["specs"].fields :: d["specs"].fields[k].Str? || d["specs"].fields[k] == Null
  {
    map[
      "id" := Str(p.id),
      "name" := Str(p.name),
      "price_min" := Int(p.priceMin),
      "price_max" := Int(p.priceMax),
      "category" := Str(p.category),
      "brand" := Str(p.brand),
      "source" := Str(p.source),
      "url" := Str(p.url),
      "image" := Str(p.image),
      "specs" := Obj(SpecsJson(p.specs)),
      "warranty" := Str(p.warranty),
      "search_content" := Str(p.searchContent)]
  }

  /** The nested `specs` dict; the GPU is written under "graphics". */
  function SpecsJson(specs: KeySpecs): (m: map<string, Value>)
    ensures m.Keys == {"processor", "ram", "storage", "graphics"}
    ensures forall k | k in m :: m[k].Str? || m[k] == Null
  {
    map[
      "processor" := OfOption(specs.processor),
      "ram" := OfOption(specs.ram),
      "storage" := OfOption(specs.storage),
      "graphics" := OfOption(specs.gpu)]
  }
}

=== FILE: text.dfy ===
/** Character classes and string operations the preprocessing and upload
    scripts rely on: decimal digits and their values, Python's `{:,}`
    thousands grouping, slicing `s[:n]`, `s.split('\n')[0]`, `sep.join(xs)`,
    and the character classes of the regular expressions used to find sizes. */
module Text {

  /** An ASCII decimal digit. */
  predicate IsDigit(c: char) {
    '0' <= c <= '9'
  }

  predicate AllDigits(s: string) {
    forall i | 0 <= i < |s| :: IsDigit(s[i])
  }

  predicate HasDigit(s: string) {
    exists i | 0 <= i < |s| :: IsDigit(s[i])
  }

  function DigitValue(c: char): nat
    requires IsDigit(c)
  {
    c as int - '0' as int
  }

  function DigitChar(d: nat): (c: char)
    requires d < 10
    ensures IsDigit(c) && DigitValue(c) == d
  {
    ('0' as int + d) as char
  }

  function Pow10(n: nat): (r: nat)
    ensures r >= 1
  {
    if n == 0 then 1 else 10 * Pow10(n - 1)
  }

  /** The number a string of decimal digits denotes, as Python's `int(s)`
      reads it (leading zeros allowed; the empty string denotes 0 here, but
      the callers never convert it). */
  function DigitsValue(s: string): nat
    requires AllDigits(s)
    decreases |s|
  {
    if |s| == 0 then 0 else DigitsValue(s[..|s| - 1]) * 10 + DigitValue(s[|s| - 1])
  }

  lemma AllDigitsAppend(a: string, b: string)
    requires AllDigits(a) && AllDigits(b)
    ensures AllDigits(a + b)
  {
    var ab := a + b;
    forall i | 0 <= i < |ab| ensures IsDigit(ab[i]) {
      if i < |a| { assert ab[i] == a[i]; } else { assert ab[i] == b[i - |a|]; }
    }
  }

  /** Appending digits shifts the value of the prefix. */
  lemma {:induction false} DigitsValueAppend(a: string, b: string)
    requires AllDigits(a) && AllDigits(b)
    ensures AllDigits(a + b)
    ensures DigitsValue(a + b) == DigitsValue(a) * Pow10(|b|) + DigitsValue(b)
    decreases |b|
  {
    AllDigitsAppend(a, b);
    var ab := a + b;
    if |b| == 0 {
      assert ab == a;
    } else {
      var b' := b[..|b| - 1];
      var d := DigitValue(b[|b| - 1]);
      assert ab[..|ab| - 1] == a + b';
      assert ab[|ab| - 1] == b[|b| - 1];
      DigitsValueAppend(a, b');
      ShiftByDigit(DigitsValue(a), Pow10(|b'|), DigitsValue(b'), d);
    }
  }

  lemma ShiftByDigit(va: nat, p: nat, vb: nat, d: nat)
    ensures (va * p + vb) * 10 + d == va * (10 * p) + (vb * 10 + d)
  {
  }

  /** The canonical decimal spelling of `n`, as Python's `str(n)`. */
  function Decimal(n: nat): (r: string)
    ensures |r| >= 1 && AllDigits(r)
    ensures DigitsValue(r) == n
    ensures n > 0 ==> r[0] != '0'
    ensures n < Pow10(|r|) && (|r| >= 2 ==> Pow10(|r| - 1) <= n)
  {
    if n < 10 then
      [DigitChar(n)]
    else
      var r := Decimal(n / 10) + [DigitChar(n % 10)];
      assert r[..|r| - 1] == Decimal(n / 10);
      r
  }

  /** `str(n)` has at most three digits below 1000. */
  lemma ShortDecimal(n: nat)
    requires n < 1000
    ensures |Decimal(n)| <= 3
  {
  }

  /** Different numbers have different decimal spellings. */
  lemma DecimalInjective(a: nat, b: nat)
    requires Decimal(a) == Decimal(b)
    ensures a == b
  {
    assert DigitsValue(Decimal(a)) == DigitsValue(Decimal(b));
  }

  /** Three digits, zero-padded: one comma-separated group of `{:,}`. */
  function Group3(k: nat): (r: string)
    requires k < 1000
    ensures |r| == 3 && AllDigits(r)
    ensures DigitsValue(r) == k
  {
    var r := [DigitChar(k / 100), DigitChar(k / 10 % 10), DigitChar(k % 10)];
    var r1, r2 := r[..1], r[..2];
    assert r1[..0] == "" && r2[..1] == r1 && r[..2] == r2;
    assert DigitsValue(r1) == k / 100;
    assert DigitsValue(r2) == k / 100 * 10 + k / 10 % 10;
    assert (k / 100 * 10 + k / 10 % 10) * 10 + k % 10 == k;
    r
  }

  /** `s` with every comma removed, Python's `s.replace(',', '')`. */
  function StripCommas(s: string): (r: string)
    ensures ',' !in r
    ensures |r| <= |s|
    decreases |s|
  {
    if |s| == 0 then "" else (if s[0] == ',' then "" else [s[0]]) + StripCommas(s[1..])
  }

  lemma {:induction false} StripCommasAppend(a: string, b: string)
    ensures StripCommas(a + b) == StripCommas(a) + StripCommas(b)
    decreases |a|
  {
    if |a| == 0 {
      assert a + b == b;
    } else {
      assert (a + b)[1..] == a[1..] + b;
      StripCommasAppend(a[1..], b);
    }
  }

  lemma {:induction false} StripCommasOfDigits(s: string)
    requires AllDigits(s)
    ensures StripCommas(s) == s
    decreases |s|
  {
    if |s| > 0 {
      StripCommasOfDigits(s[1..]);
      assert s == [s[0]] + s[1..];
    }
  }

  /** Digits and commas only, starting with a digit: the shape `{:,}` prints. */
  predicate IsGroupedNumeral(s: string) {
    && |s| >= 1
    && IsDigit(s[0])
    && forall i | 0 <= i < |s| :: IsDigit(s[i]) || s[i] == ','
  }

  /** Digits with a comma before every third digit counted from the right:
      a comma stands exactly at the positions a multiple of four from the
      end, so the first group has one to three digits and every later one
      exactly three. */
  predicate IsThousandsGrouped(s: string) {
    && |s| % 4 != 0
    && forall i | 0 <= i < |s| :: (s[i] == ',' <==> (|s| - i) % 4 == 0) && (s[i] != ',' ==> IsDigit(s[i]))
  }

  /** Python's `f"{n:,}"` for a non-negative integer: decimal digits with a
      comma between each group of three, counted from the right. */
  function FormatThousands(n: nat): (r: string)
    ensures IsGroupedNumeral(r)
    ensures IsThousandsGrouped(r)
    ensures r[0] != '0' || r == "0"
    ensures n < 1000 <==> ',' !in r
  {
    if n < 1000 then
      ShortDecimal(n);
      Decimal(n)
    else
      var head := FormatThousands(n / 1000);
      var tail := Group3(n % 1000);
      GroupAppend(head, tail);
      head + "," + tail
  }

  /** One more group of three digits keeps a numeral grouped. */
  lemma GroupAppend(head: string, tail: string)
    requires IsGroupedNumeral(head) && IsThousandsGrouped(head)
    requires |tail| == 3 && AllDigits(tail)
    ensures var r := head + "," + tail;
      && r[0] == head[0]
      && IsGroupedNumeral(r) && IsThousandsGrouped(r) && ',' in r
  {
    var r := head + "," + tail;
    assert r[|head|] == ',';
    forall i | 0 <= i < |r|
      ensures (r[i] == ',' <==> (|r| - i) % 4 == 0) && (r[i] != ',' ==> IsDigit(r[i]))
    {
      if i < |head| {
        assert r[i] == head[i];
        assert (|r| - i) % 4 == (|head| - i) % 4;
      } else if i > |head| {
        assert r[i] == tail[i - |head| - 1];
      }
    }
  }

  /** `x` is how `{:,}` prints `n`: comma-grouped digits without a leading
      zero whose value, read without the commas, is `n`. */
  predicate IsGroupedAmount(x: string, n: nat) {
    && |x| >= 1
    && IsThousandsGrouped(x)
    && (x[0] != '0' || x == "0")
    && AllDigits(StripCommas(x))
    && DigitsValue(StripCommas(x)) == n
  }

  /** `{:,}` prints the grouped amount of its number. */
  lemma FormatThousandsAmount(n: nat)
    ensures IsGroupedAmount(FormatThousands(n), n)
  {
    FormatThousandsValue(n);
  }

  /** Removing the grouping commas from `{:,}` gives back the number. */
  lemma {:induction false} FormatThousandsValue(n: nat)
    ensures AllDigits(StripCommas(FormatThousands(n)))
    ensures |StripCommas(FormatThousands(n))| >= 1
    ensures DigitsValue(StripCommas(FormatThousands(n))) == n
  {
    if n < 1000 {
      StripCommasOfDigits(Decimal(n));
    } else {
      var head, tail := FormatThousands(n / 1000), Group3(n % 1000);
      FormatThousandsValue(n / 1000);
      StripGroup(head, tail);
      DigitsValueAppend(StripCommas(head), tail);
      assert Pow10(3) == 1000;
    }
  }

  /** Dropping the commas of one more group appends its digits. */
  lemma StripGroup(head: string, tail: string)
    requires AllDigits(tail)
    ensures StripCommas(head + "," + tail) == StripCommas(head) + tail
  {
    var group := "," + tail;
    assert group[0] == ',' && group[1..] == tail;
    assert StripCommas(group) == StripCommas(tail);
    StripCommasOfDigits(tail);
    StripCommasAppend(head, group);
    assert head + "," + tail == head + group;
  }

  /** Python's slice `s[:n]`: the first `n` characters, or all of them. */
  function Take(s: string, n: nat): (r: string)
    ensures |r| <= n && |r| <= |s|
    ensures |r| == n || |r| == |s|
    ensures r == s[..|r|]
  {
    if |s| <= n then s else s[..n]
  }

  /** Python's `s.split('\n')[0]`: everything before the first line feed. */
  function FirstLine(s: string): (r: string)
    ensures |r| <= |s| && r == s[..|r|]
    ensures '\n' !in r
    ensures |r| < |s| ==> s[|r|] == '\n'
    decreases |s|
  {
    if |s| == 0 || s[0] == '\n' then "" else [s[0]] + FirstLine(s[1..])
  }

  function TotalLength(parts: seq<string>): nat
    decreases |parts|
  {
    if |parts| == 0 then 0 else |parts[0]| + TotalLength(parts[1..])
  }

  /** Python's `sep.join(parts)`. */
  function Join(sep: string, parts: seq<string>): (r: string)
    ensures |parts| == 0 ==> r == ""
    ensures |parts| == 1 ==> r == parts[0]
    ensures |parts| >= 1 ==> |r| == TotalLength(parts) + |sep| * (|parts| - 1)
    ensures |parts| >= 1 ==> r[..|parts[0]|] == parts[0]
    decreases |parts|
  {
    if |parts| == 0 then ""
    else if |parts| == 1 then parts[0]
    else parts[0] + sep + Join(sep, parts[1..])
  }

  /** A join is empty only when there is nothing to join or its first part
      is empty. */
  lemma JoinEmpty(sep: string, parts: seq<string>)
    requires |parts| >= 1 ==> |parts[0]| >= 1
    ensures Join(sep, parts) == "" <==> |parts| == 0
  {
    if |parts| >= 1 {
      assert Join(sep, parts)[..|parts[0]|] == parts[0];
    }
  }

  /** Joining two non-empty lists puts one separator between their joins:
      with `Join(sep, [x]) == x`, this places every separator. */
  lemma {:induction false} JoinAppend(sep: string, a: seq<string>, b: seq<string>)
    requires |a| >= 1 && |b| >= 1
    ensures Join(sep, a + b) == Join(sep, a) + sep + Join(sep, b)
    decreases |a|
  {
    if |a| == 1 {
      assert (a + b)[1..] == b;
    } else {
      assert (a + b)[1..] == a[1..] + b;
      JoinAppend(sep, a[1..], b);
    }
  }

  /** Python's `s.split(c)` for a one-character separator: the pieces
      between the occurrences of `c`, at least one. */
  function Split(s: string, c: char): (parts: seq<string>)
    ensures |parts| >= 1
    ensures forall k | 0 <= k < |parts| :: c !in parts[k]
    decreases |s|
  {
    if |s| == 0 then [""]
    else if s[0] == c then [""] + Split(s[1..], c)
    else
      var rest := Split(s[1..], c);
      [[s[0]] + rest[0]] + rest[1..]
  }

  /** Text without the separator is one piece. */
  lemma {:induction false} SplitPlain(a: string, c: char)
    requires c !in a
    ensures Split(a, c) == [a]
    decreases |a|
  {
    if |a| > 0 {
      SplitPlain(a[1..], c);
      assert [a[0]] + a[1..] == a;
    }
  }

  /** A piece without the separator, the separator, then the rest. */
  lemma {:induction false} SplitAfterPiece(a: string, c: char, rest: string)
    requires c !in a
    ensures Split(a + [c] + rest, c) == [a] + Split(rest, c)
    decreases |a|
  {
    var s := a + [c] + rest;
    if |a| == 0 {
      assert s[0] == c && s[1..] == rest;
    } else {
      assert s[0] == a[0] && s[1..] == a[1..] + [c] + rest;
      SplitAfterPiece(a[1..], c, rest);
      assert [a[0]] + a[1..] == a;
    }
  }

  /** Round trip: splitting a join on its one-character separator gives the
      parts back, when no part contains the separator. */
  lemma {:induction false} SplitJoin(c: char, parts: seq<string>)
    requires |parts| >= 1
    requires forall k | 0 <= k < |parts| :: c !in parts[k]
    ensures Split(Join([c], parts), c) == parts
    decreases |parts|
  {
    if |parts| == 1 {
      SplitPlain(parts[0], c);
    } else {
      SplitJoin(c, parts[1..]);
      SplitAfterPiece(parts[0], c, Join([c], parts[1..]));
      assert [parts[0]] + parts[1..] == parts;
    }
  }

  /** `s` begins with `prefix`. */
  predicate StartsWith(s: string, prefix: string) {
    |prefix| <= |s| && s[..|prefix|] == prefix
  }

  /** Python's `str.isspace()` characters, which `\s` matches in a `str` pattern. */
  predicate IsSpace(c: char) {
    || '\t' <= c <= '\r'
    || '\U{1C}' <= c <= ' '
    || c == '\U{85}' || c == '\U{A0}' || c == '\U{1680}'
    || '\U{2000}' <= c <= '\U{200A}'
    || c == '\U{2028}' || c == '\U{2029}' || c == '\U{202F}' || c == '\U{205F}' || c == '\U{3000}'
  }

  function ToLowerAscii(c: char): char {
    if 'A' <= c <= 'Z' then (c as int + 32) as char else c
  }

  /** Whether `c` matches the lower-case ASCII pattern letter `p` under
      `re.IGNORECASE`: either case, and the long s (U+017F) also matches `s`. */
  predicate MatchesLetter(c: char, p: char) {
    ToLowerAscii(c) == p || (p == 's' && c == '\U{017F}')
  }

  /** `word` (lower-case) occurs at position `i` of `s`, ignoring case. */
  predicate WordAt(s: string, i: nat, word: string) {
    && i + |word| <= |s|
    && forall k | 0 <= k < |word| :: MatchesLetter(s[i + k], word[k])
  }
}

=== FILE: values.dfy ===
/** The JSON values the upload scripts read back from the processed product
    file: each product is a dict of these. */
module Values {
  import opened Wrappers

  /** A JSON value as Python holds it after `json.load`: `None`, a string, an
      integer or a nested dict. Lists and floats do not occur in the product
      file's fields that the upload scripts read. */
  datatype Value = Null | Str(s: string) | Int(i: int) | Obj(fields: map<string, Value>)

  /** Python truthiness: `None`, `''`, `0` and `{}` are false. */
  predicate Truthy(v: Value) {
    match v
    case Null => false
    case Str(s) => s != ""
    case Int(i) => i != 0
    case Obj(m) => m != map[]
  }

  /** Python's `v or 0`. */
  function OrZero(v: Value): (r: Value)
    ensures Truthy(v) ==> r == v
    ensures !Truthy(v) ==> r == Int(0)
  {
    if Truthy(v) then v else Int(0)
  }

  /** A possibly-missing string as JSON: `None` becomes `null`. */
  function OfOption(o: Option<string>): (v: Value)
    ensures o.None? <==> v == Null
    ensures o.Some? ==> v == Str(o.value)
  {
    if o.Some? then Str(o.value) else Null
  }

  /** Python's `d.get(key, default)`. */
  function Get(d: map<string, Value>, key: string, default: Value): Value {
    if key in d then d[key] else default
  }

  /** One vector handed to the index: its id, its embedding row and its
      metadata (a tuple in one upload script, a dict in the other). */
  datatype Vector = Vector(id: Value, values: seq<real>, metadata: map<string, Value>)

  /** One line of a metadata dict literal: the key written and the rule
      (of the script's own kind) that reads its value. */
  datatype FieldRule<R> = FieldRule(key: string, rule: R)

  /** The keys a rule table writes. */
  function KeysOf<R>(rules: seq<FieldRule<R>>): set<string> {
    set i | 0 <= i < |rules| :: rules[i].key
  }

  /** No key written twice. */
  predicate Distinct<R>(rules: seq<FieldRule<R>>) {
    forall i, j | 0 <= i < j < |rules| :: rules[i].key != rules[j].key
  }

  /** The first rule's key and the rest's keys. */
  lemma KeysOfCons<R>(rules: seq<FieldRule<R>>)
    requires |rules| >= 1
    ensures KeysOf(rules) == {rules[0].key} + KeysOf(rules[1..])
  {
    assert forall i | 1 <= i < |rules| :: rules[i] == rules[1..][i - 1];
  }
}

=== FILE: wrappers.dfy ===
/** Option and Result, the shapes the scripts' `None` returns and aborting
    error paths take in this model. */
module Wrappers {

  /** A value that may be missing: Python's `None`, or pandas' NaN cell. */
  datatype Option<+T> = None | Some(value: T) {

    /** The value, or `default` when there is none (`x if pd.notna(x) else default`). */
    function GetOr(default: T): T {
      match this
      case Some(v) => v
      case None => default
    }
  }

  /** The outcome of a step that either produces a value or stops the script. */
  datatype Result<+R, +E> = Ok(value: R) | Err(error: E)
}
